=== FILE: README.md ===
# pykuler in Dafny

A model of `src/kuler.py`, a small client for the Adobe Kuler colour-theme
feed service, together with proofs about it. The model covers these parts:

- `Color` builds a colour from `#RRGGBB`-style hex strings and from channel triples, and returns the triple. Its 16-bit upscaling `asRGB16` always raises as shipped. The model gives that method as written, and separately the upscaling it evidently meant (see Findings).
- `Theme` is an id, a title and a list of colours, with length, indexing and iteration.
- `Kuler.search` turns the first criterion given into a search query. `Kuler.list` names a listing.
- Both hand off to `_fetch`. `_fetch` builds one URL per page, with the page cursor `startIndex` moving by one each time. It decodes the records of each page in order and goes on until a page comes back empty, a request or a swatch fails, or at least `maxItems` records have been emitted. A bad swatch ends the run at its record: the records after it are not decoded. The limit is tested only before each request, so a fetched page is always emitted whole, and a run can emit more than `maxItems` records.

Modules, following the source's structure:

| module | file | models |
|---|---|---|
| `Wrappers` | wrappers.dfy | `Option` and `Result` |
| `HexDigits` | hex.dfy | `int(s, 16)` and its inverse |
| `Decimal` | decimal.dfy | `'%d' % n` and its inverse |
| `Colors` | color.dfy | `Color`: `fromRGB`, `asRGB`, `asRGB16`, `fromHexRGB` |
| `Themes` | theme.dfy | `Theme`: `__getitem__`, `__len__`, `__iter__`, `items` |
| `Requests` | requests.dfy | the `search` criteria and the page URL of `_fetch` |
| `Decoding` | decoding.dfy | turning one feed record into a `Theme` |
| `Pagination` | pagination.dfy | the paging loop of `_fetch` |
| `Kuler` | kuler.dfy | `Kuler.search` and `Kuler.list`, plus the two scenarios of `src/test/test_kuler.py` |

Modelling choices:

- The client's `urlFetch` and the markup parsing that follows it are folded into one parameter. That parameter is a function from a URL to `None` (the request failed) or to a page, which is a list of records (id, title, swatch strings).
- A run of `_fetch` consumed to the end is a `Run`: the themes emitted, the URLs requested in order, and why it stopped.
- The loop itself is generic in how a cursor becomes a URL and how a record becomes a theme. `Kuler.MakeFeed` plugs in the real URL and `Decoding.DecodeTheme`.
- Python's keyword `options` dictionary becomes an explicit ordered list of key/value pairs. It is in the order that the test of `list` expects.

Where the code and its documentation disagree, the model follows the code:

- `lstrip('#')` removes every leading `#`, not just one.
- A hex string whose length is not a positive multiple of three is an error, not a misparse. The error comes from a zero `range` step or from the wrong number of groups for the constructor.
- Of the page shapes, only an empty page stops the loop. A short page is followed by one more request.
- The limit `maxItems` is tested only before each request, not after each record, so the last page is emitted whole and a run can overshoot the limit (`Pagination.Overshoot`).
- The default `listType` is the misspelt `'raiting'`.

## Model

| member | source | states |
|---|---|---|
| Colors.FromRGB | src/kuler.py:38-40 | the colour built from a triple has that triple as its `asRGB` |
| Colors.AsRGB | src/kuler.py:25-26 | the triple determines the colour: rebuilding a colour from it gives the same colour |
| Colors.AsRGB16 | src/kuler.py:28-29 | the evidently intended upscaling: each channel below 256 reads back as the high byte of its new value, with a zero low byte; each larger channel is kept |
| Colors.RGBRoundTrip | src/kuler.py:38-40 | `fromRGB` then `asRGB` gives the triple back, and rebuilding a colour from `asRGB` gives the colour back |
| Colors.AsRGB16Channels | src/kuler.py:28-29 | each channel below 256, negatives included, is multiplied by 256 and any other channel is kept, each channel independently of the others |
| Colors.AsRGB16Idempotent | src/kuler.py:28-29 | on non-negative channels, upscaling an already upscaled colour changes nothing |
| Colors.AsRGB16Example | src/kuler.py:28-29 | (10, 300, 0) becomes (2560, 300, 0) |
| Colors.AsRGB16AsWritten | src/kuler.py:28-29 | the method as shipped always fails, because it calls `as_rgb`, which `Color` lacks |
| Colors.AsRGB16AsWrittenFails | src/kuler.py:28-29 | the method as shipped never returns the triple that the upscaling rule describes |
| Colors.StripLeading | src/kuler.py:34 | the result is a suffix of the input; every removed character is `#`; the result does not start with `#` |
| Colors.StripHashes | src/kuler.py:34 | any number of leading `#`s in front of a string not starting with `#` is removed |
| Colors.Chunks | src/kuler.py:36 | the slices `s[i:i+step]` over `range(0, len(s), step)` concatenate back to `s`; each is non-empty and at most `step` long; all but the last are exactly `step` long |
| Colors.ParseGroups | src/kuler.py:36 | on success there is one value per group, each being that group read in base 16; on failure some group is not a hex numeral |
| Colors.ChunksOfThirds | src/kuler.py:35-36 | a string of length 3w is cut into exactly its three thirds |
| Colors.ChunksBeyondThirds | src/kuler.py:35-36 | a string longer than three times the step gives more than three groups, too many for the constructor |
| Colors.DecodeStripped | src/kuler.py:35-36 | decoding a stripped string succeeds exactly when its length is a positive multiple of three and it is all hex digits; the channels are its three thirds in base 16 |
| Colors.FromHexRGB | src/kuler.py:32-36 | `fromHexRGB` yields a colour exactly when the string left after removing leading `#`s is well formed, and that colour is the one read from its thirds |
| Colors.SixDigitRoundTrip | src/kuler.py:32-36 | three bytes written as two hex digits each, behind any number of `#`s, decode back to the same colour |
| Colors.ThreeDigitDecode | src/kuler.py:32-36 | a three-digit string gives three one-digit channels (no doubling of digits) |
| Colors.HexExample | src/kuler.py:32-36 | `#FF8000` decodes to (255, 128, 0) |
| HexDigits.ParseHex | src/kuler.py:36 | `int(s, 16)` is defined exactly on non-empty runs of hex digits of either case, and the value is below 16 to the power of the string's length |
| HexDigits.ParseToHex | src/kuler.py:36 | reading back a fixed-width hex numeral gives its value |
| HexDigits.ParseHexIgnoresCase | src/kuler.py:36 | a numeral and its upper-case spelling read as the same value, so lower-case digits `a`–`f` count 10–15 like `A`–`F` |
| HexDigits.ToHexOfParse | src/kuler.py:36 | writing the value of a numeral back at the same width gives the numeral's upper-case spelling: every digit, of either case, is read at its place value |
| HexDigits.LowerCaseExample | src/kuler.py:36 | `ff` reads as 255 |
| Decimal.IntString | src/kuler.py:122 | the `%d` rendering of the page cursor reads back as that integer; it is the canonical spelling: a minus sign exactly for negatives, then digits with no leading zero, and `0` for zero |
| Decimal.IntStringInjective | src/kuler.py:122 | distinct cursors render differently |
| Themes.GetItem | src/kuler.py:49-50 | indexing succeeds exactly for positions in [-len, len), as with Python lists |
| Themes.Len | src/kuler.py:52-53 | every position below `len(theme)` can be indexed, and `len(theme)` itself cannot |
| Themes.Iter | src/kuler.py:55-56 | iteration yields `len(theme)` colours, the i-th being `theme[i]` |
| Themes.Items | src/kuler.py:61-62 | `items()` is the same list that iteration yields |
| Themes.ThemeViewsAgree | src/kuler.py:49-62 | length, iteration and `items()` describe the same list; index i and index i-len both give its element i; positions len and -len-1 raise |
| Themes.ThemeRoundTrip | src/kuler.py:44-56 | a theme built over a colour list has that length and iterates over exactly that list |
| Themes.IterateByIndex | src/kuler.py:49-56 | asking for indices 0, 1, … until the first index error yields exactly the iteration order |
| Requests.SearchQuery | src/kuler.py:83-97 | the `if`/`elif` chain gives what scanning the (name, argument) pairs in precedence order for the first truthy argument gives: `name:value`, or the error if there is none |
| Requests.SearchQueryPrecedence | src/kuler.py:83-97 | no truthy criterion gives the error; otherwise the query is `name:value` of the first truthy criterion in the order themeID, userID, email, tag, hex, title |
| Requests.SearchOptions | src/kuler.py:99-101 | the options of `search` never include `startIndex` or `maxItems` |
| Requests.ListOptions | src/kuler.py:115-117 | the options of `list` never include `startIndex` or `maxItems` |
| Requests.PageUrl | src/kuler.py:122-127 | the page URL is the request head, then a numeral that reads back as the cursor, then `&key=` and the key |
| Requests.PageUrlInjective | src/kuler.py:122-127 | for one service, option list and key, different cursors give different page URLs |
| Requests.ListUrlShape | src/kuler.py:122-127 | the listing URL is `http://kuler-api.adobe.com/rss/get.cfm?listType=…&itemsPerPage=…&timeSpan=…&startIndex=<n>&key=<key>` |
| Requests.SearchUrlShape | src/kuler.py:122-127 | the search URL is `http://kuler-api.adobe.com/rss/search.cfm?searchQuery=…&itemsPerPage=…&startIndex=<n>&key=<key>` |
| Decoding.DecodeColors | src/kuler.py:149 | the swatch list decodes exactly when every swatch does; then there is one colour per swatch, in order |
| Decoding.DecodeTheme | src/kuler.py:145-151 | a record becomes a theme with its id and title and one colour per swatch; it fails exactly when some swatch fails |
| Pagination.DecodePage | src/kuler.py:145-153 | the records of a page are decoded in order; on an undecodable record, the records before it are kept and its error is reported |
| Pagination.DecodePageCharacterised | src/kuler.py:145-153 | any decoded prefix that ends at the page's end or at an undecodable record is the one `DecodePage` gives |
| Pagination.StepAt | src/kuler.py:130-153 | a loop pass that continues had a non-empty page that decoded completely |
| Pagination.FullPageIsNext | src/kuler.py:141-153 | a pass continues exactly when its page arrived, was non-empty and decoded completely |
| Pagination.Loop | src/kuler.py:121-155 | a run makes no more requests than its fuel |
| Pagination.FetchAll | src/kuler.py:119-155 | request k of `_fetch` asks for cursor `startIndex + k`, the themes are those of the fetched pages, page by page in order, and the run shows every fact of `RunFacts` (limit test, full pages before the last, why it stopped) |
| Pagination.LoopUrls | src/kuler.py:122-155 | the k-th request of a run asks for cursor `start + k`; the cursor moves by one page per request, not by the page size |
| Pagination.LoopEmitsWholePages | src/kuler.py:145-153 | the themes of a run are the themes of its fetched pages, page by page in order |
| Pagination.LoopFetchGuard | src/kuler.py:121 | every request was made while the count of emitted items was below the limit; a run that stops on the limit has reached it |
| Pagination.LoopFullBeforeLast | src/kuler.py:142-155 | every page of a run but the last arrived, was non-empty and decoded completely |
| Pagination.LoopLastPage | src/kuler.py:142-149 | a run stops on an empty page exactly when its last page was empty, and on a transport error exactly when its last request failed; a bad swatch stop names the error of its last page |
| Pagination.LoopEndsAfterFullPage | src/kuler.py:121-155 | a run stops on the limit or the fuel only after a full page, and on the fuel only with the limit still open and every fetch spent |
| Pagination.LoopRunFacts | src/kuler.py:121-155 | every run of the loop shows all the facts of `RunFacts` |
| Pagination.LoopFullPageContinues | src/kuler.py:121-155 | a full last page, however short, never ends a run by itself: only the limit or the fuel does |
| Pagination.FuelSuffices | src/kuler.py:121 | with a limit of n, fuel n is enough for the run to end on its own |
| Pagination.FuelIrrelevant | src/kuler.py:121 | once a run ends without using up its fuel, more fuel gives the same run |
| Pagination.LoopUrlsDistinct | src/kuler.py:122-155 | no URL is requested twice in one run, so a stub answering by URL behaves like one answering by call order |
| Pagination.OneRecordPerPage | src/kuler.py:121-155 | with one record per page and a limit of n, exactly n records come from exactly n requests and the run stops on the limit |
| Pagination.Overshoot | src/kuler.py:121-153 | the limit is checked only between pages: a limit of 1 and a first page of two records emits both |
| Pagination.EmitPage | src/kuler.py:145-153 | the inner loop over a page emits what `DecodePage` describes |
| Pagination.LoopCharacterised | src/kuler.py:119-155 | a finished run is determined by what it shows: its URLs, its themes, the limit test passed before each fetch, which pages were full, and why it ended. Only the run `Loop` describes shows all of these |
| Pagination.Fetch | src/kuler.py:119-155 | the `while` loop as written requests cursor `startIndex + k` k-th and emits the themes of its pages in order. It fetches only after the limit test passes, and every page but the last was full. It ends on the limit only when the limit is reached, on an empty page exactly when the last page was empty, on a transport error exactly when the last fetch failed, and on a bad swatch with the error of the last page. Its run is therefore the one `FetchAll` describes |
| Kuler.MakeFeed | src/kuler.py:119-127 | the request for cursor c is the page URL for c under the client's key; pages come from the client's fetch and records go through `DecodeTheme`; different cursors give different URLs |
| Kuler.Search | src/kuler.py:72-101 | `search` fails before any request exactly when no criterion is truthy; otherwise request k is the search URL for cursor `startIndex + k`, and the run shows the paging loop's facts (`RunFacts`) |
| Kuler.List | src/kuler.py:103-117 | request k of `list` is the listing URL for cursor `startIndex + k`, and the run shows the paging loop's facts (`RunFacts`) |
| Kuler.ListRequestsOnce | src/kuler.py:103-127 | a `list` call never requests the same URL twice |
| Kuler.SearchWithoutCriterion | src/kuler.py:96-97 | with every criterion omitted or empty, `search` raises |
| Kuler.ListingUrl | src/test/test_kuler.py:35-36 | the listing URL of the test for cursor i is the literal string the test expects |
| Kuler.ListingRunCounts | src/test/test_kuler.py:30-33 | `list(maxItems=n, itemsPerPage=1)` against one record per page emits n themes from n requests and stops on the limit |
| Kuler.ListingWithMaxItemsCount | src/test/test_kuler.py:24-37 | n themes, n requests, and request i is `…?listType=raiting&itemsPerPage=1&timeSpan=0&startIndex=<i>&key=key1` |
| Kuler.ThemeIdQuery | src/test/test_kuler.py:47 | `search(themeID='themeId')` queries `themeID:themeId` |
| Kuler.SearchTest | src/test/test_kuler.py:39-50 | `search(themeID='themeId')` against a one-result page followed by empty pages yields exactly that one theme, with the record's title; the short first page is followed by a second request, and the run ends on that empty page |

## Left out

- Network I/O (`_urllib2Fetch`), the markup parser and its element lookups are not modelled. The fetch is a parameter that returns the records of a page or a failure. A record with a missing element is not modelled.
- Logging, `main` and its printing, and `setup.py` are left out: they compute nothing the core depends on.
- `Color.__str__` and `Theme.__str__` are not modelled: they are display only.
- Object identity is not modelled. `Color` and `Theme` are old-style Python 2 classes without `__eq__`, so Python compares two instances by identity. The model compares them by value, so "the same colour" (as in the `Colors.AsRGB` row) means equal channels.
- Aliasing of a theme's colour list is not modelled. The source's `Theme` keeps the caller's own list (src/kuler.py:47) and `items()` hands that list out (src/kuler.py:62), so mutating it changes the theme. The model's `Theme` is an immutable value.
- Search criteria are modelled as strings (`Option<string>`), with truthiness meaning given and non-empty. A non-string argument is not modelled: for example `search(themeID=0)` raises in the source because `0` is falsy (src/kuler.py:84-97), while the nearest model input, `Some("0")`, is truthy.
- The iteration order of Python's keyword dictionary is left out. The options are an explicit list in the order the listing test expects.
- `int(s, 16)` is modelled on plain runs of hex digits. Python 2's extra leniencies are not modelled: surrounding whitespace, a sign, a `0x` prefix and, for unicode input, non-ASCII decimal digits (such as Arabic-Indic ones), which `int()` accepts.
- Exception types are collapsed into error values. This covers the `ValueError` from a zero `range` step and the `TypeError` from the wrong number of constructor arguments. It also covers `search`'s undefined `AttributeException`, which in practice raises a `NameError`; either way the call fails before any request.
- The test replaces `_urlFetch` while the client calls `urlFetch`. The scenario lemmas model the evident intent: the stub answers the client's requests.
- Generator laziness is not modelled. Runs are consumed to the end, so a consumer that stops early is not modelled. A run that stops on a bad swatch keeps the themes emitted before it, as the generator had yielded them.
- Pagination.Loop: the number of requests is bounded by a `fuel` parameter, because with `maxItems=None` and a feed that never runs dry the source loops forever. `FuelSuffices` and `FuelIrrelevant` show that the bound is immaterial whenever there is a limit.
- Pagination.FetchAll: bounded by the same `fuel` parameter as `Loop`.
- Pagination.Fetch: bounded by the same `fuel` parameter as `Loop`. After that many requests the loop leaves with `OutOfFuel`, which has no counterpart in the source.
- Kuler.Search: bounded by the same `fuel` parameter as `Loop`.
- Kuler.List: bounded by the same `fuel` parameter as `Loop`.
- Kuler.Search: option values are taken to be ASCII byte strings. With a non-ASCII unicode criterion (for example `search(tag=u'grün')`), `str(j)` at src/kuler.py:123-124 raises `UnicodeEncodeError` before the first request. That failure is not modelled.
- Kuler.List: option values are taken to be ASCII byte strings, so the `UnicodeEncodeError` that `str(j)` raises at src/kuler.py:123-124 for a non-ASCII unicode `listType` is not modelled.

## Findings

| source | as written | input that shows it | evidently intended | confidence | as-written member | corrected member |
|---|---|---|---|---|---|---|
| src/kuler.py:28-29 | `asRGB16` iterates over `self.as_rgb()`, a method `Color` does not define | any colour, e.g. `Color(10, 300, 0).asRGB16()` raises `AttributeError` | iterate over `self.asRGB()`, giving (2560, 300, 0) | high; not executed | Colors.AsRGB16AsWrittenFails | Colors.AsRGB16Channels |

=== FILE: color.dfy ===
/** `Color` of src/kuler.py: an RGB triple with no range check, built
    directly or from a hexadecimal string, with its 8- and 16-bit views. */
module Colors {
  import opened Wrappers
  import opened HexDigits

  datatype Color = Color(r: int, g: int, b: int)

  /** Why `fromHexRGB` raises. */
  datatype HexError =
    | ZeroStep              // fewer than three digits: `range` gets step 0
    | BadGroup(group: string) // `int(group, 16)` rejects a group
    | Arity(count: nat)     // more than three groups reach the 3-argument constructor

  /** Raised by the shipped `asRGB16`, which calls a method `Color` lacks. */
  datatype AttributeError = NoAttribute(name: string)

  /** `Color.fromRGB`: the colour whose `asRGB` is the given triple. */
  function FromRGB(r: int, g: int, b: int): (c: Color)
    ensures AsRGB(c) == (r, g, b)
  {
    Color(r, g, b)
  }

  /** `asRGB`: the triple determines the colour. */
  function AsRGB(c: Color): (t: (int, int, int))
    ensures Color(t.0, t.1, t.2) == c
  {
    (c.r, c.g, c.b)
  }

  /** `fromRGB` and `asRGB` are inverse to each other. */
  lemma RGBRoundTrip(r: int, g: int, b: int, c: Color)
    ensures AsRGB(FromRGB(r, g, b)) == (r, g, b)
    ensures FromRGB(AsRGB(c).0, AsRGB(c).1, AsRGB(c).2) == c
  {
  }

  /** The crude 8-to-16-bit rule for one channel. */
  function Upscale16(ch: int): int {
    if ch < 256 then ch * 256 else ch
  }

  /** `asRGB16` as it was evidently meant: the rule applied to each channel of
      `asRGB`. A byte channel can be read back as the high byte; a larger one
      is kept. */
  function AsRGB16(c: Color): (t: (int, int, int))
    ensures c.r < 256 ==> t.0 / 256 == c.r && t.0 % 256 == 0
    ensures c.g < 256 ==> t.1 / 256 == c.g && t.1 % 256 == 0
    ensures c.b < 256 ==> t.2 / 256 == c.b && t.2 % 256 == 0
    ensures c.r >= 256 ==> t.0 == c.r
    ensures c.g >= 256 ==> t.1 == c.g
    ensures c.b >= 256 ==> t.2 == c.b
  {
    var (r, g, b) := AsRGB(c);
    (Upscale16(r), Upscale16(g), Upscale16(b))
  }

  /** `asRGB16` as written: it calls `self.as_rgb()`, which does not exist. */
  function AsRGB16AsWritten(c: Color): (r: Result<(int, int, int), AttributeError>)
    ensures r.Err?
  {
    Err(NoAttribute("as_rgb"))
  }

  /** The shipped `asRGB16` never returns the triple the rule describes. */
  lemma AsRGB16AsWrittenFails(c: Color)
    ensures AsRGB16AsWritten(c) != Ok(AsRGB16(c))
  {
  }

  /** Each channel below 256 is multiplied by 256, any other channel is kept,
      and no channel depends on another. */
  lemma AsRGB16Channels(c: Color)
    ensures c.r < 256 ==> AsRGB16(c).0 == c.r * 256
    ensures c.r >= 256 ==> AsRGB16(c).0 == c.r
    ensures c.g < 256 ==> AsRGB16(c).1 == c.g * 256
    ensures c.g >= 256 ==> AsRGB16(c).1 == c.g
    ensures c.b < 256 ==> AsRGB16(c).2 == c.b * 256
    ensures c.b >= 256 ==> AsRGB16(c).2 == c.b
  {
  }

  /** On non-negative channels, upscaling an upscaled colour changes nothing. */
  lemma AsRGB16Idempotent(c: Color)
    requires c.r >= 0 && c.g >= 0 && c.b >= 0
    ensures var (r, g, b) := AsRGB16(c); AsRGB16(Color(r, g, b)) == (r, g, b)
  {
  }

  lemma AsRGB16Example()
    ensures AsRGB16(Color(10, 300, 0)) == (2560, 300, 0)
  {
  }

  /** `s.lstrip(c)`: every leading `c` removed, nothing else. */
  function StripLeading(s: string, c: char): (t: string)
    ensures |t| <= |s| && t == s[|s| - |t|..]
    ensures |t| > 0 ==> t[0] != c
    ensures forall i :: 0 <= i < |s| - |t| ==> s[i] == c
  {
    if |s| > 0 && s[0] == c then StripLeading(s[1..], c) else s
  }

  function Concat(groups: seq<string>): string {
    if |groups| == 0 then "" else groups[0] + Concat(groups[1..])
  }

  /** `[s[i:i+step] for i in range(0, len(s), step)]`: consecutive pieces of
      `s`, all of length `step` except a shorter, non-empty last one. */
  function Chunks(s: string, step: nat): (groups: seq<string>)
    requires step > 0
    ensures Concat(groups) == s
    ensures forall k :: 0 <= k < |groups| ==> 0 < |groups[k]| <= step
    ensures forall k :: 0 <= k < |groups| - 1 ==> |groups[k]| == step
    decreases |s|
  {
    if |s| == 0 then []
    else if |s| <= step then [s]
    else [s[..step]] + Chunks(s[step..], step)
  }

  /** Parses the groups in order and stops at the first one `int(_, 16)` rejects. */
  function ParseGroups(groups: seq<string>): (r: Result<seq<nat>, HexError>)
    ensures r.Ok? ==> |r.value| == |groups|
    ensures r.Ok? ==> forall k :: 0 <= k < |groups| ==> ParseHex(groups[k]) == Some(r.value[k])
    ensures r.Err? ==> exists k :: 0 <= k < |groups| && ParseHex(groups[k]).None?
  {
    if |groups| == 0 then Ok([])
    else
      match ParseHex(groups[0])
      case None => Err(BadGroup(groups[0]))
      case Some(v) =>
        match ParseGroups(groups[1..])
        case Err(e) => Err(e)
        case Ok(vs) => Ok([v] + vs)
  }

  /** `Color.fromHexRGB`: strip every leading `#`, then decode what is left.
      It yields a colour exactly when that rest is a non-empty run of hex
      digits whose length is a multiple of three; the channels are then its
      three equal thirds read in base 16. */
  function FromHexRGB(hexrgb: string): (r: Result<Color, HexError>)
    ensures r.Ok? <==> WellFormedHex(StripLeading(hexrgb, '#'))
    ensures r.Ok? ==> r.value == ThirdsColor(StripLeading(hexrgb, '#'))
  {
    DecodeStripped(StripLeading(hexrgb, '#'))
  }

  /** Cut `t` into groups of a third of its length, parse each group, and hand
      the values to the three-argument constructor: a colour exactly when `t`
      is well formed, read from its thirds. */
  function DecodeStripped(t: string): (r: Result<Color, HexError>)
    ensures r.Ok? <==> WellFormedHex(t)
    ensures r.Ok? ==> r.value == ThirdsColor(t)
  {
    var step := |t| / 3;
    if step == 0 then Err(ZeroStep)
    else if |t| % 3 == 0 then
      ChunksOfThirds(t, step);
      ThirdsAreHex(t, step);
      Construct(ParseGroups(Chunks(t, step)))
    else
      ChunksBeyondThirds(t, step);
      Construct(ParseGroups(Chunks(t, step)))
  }

  /** The three-argument constructor applied to the parsed groups. */
  function Construct(parsed: Result<seq<nat>, HexError>): Result<Color, HexError> {
    match parsed
    case Err(e) => Err(e)
    case Ok(vs) => if |vs| == 3 then Ok(Color(vs[0], vs[1], vs[2])) else Err(Arity(|vs|))
  }

  /** A stripped string the decoder accepts. */
  predicate WellFormedHex(t: string) {
    |t| > 0 && |t| % 3 == 0 && AllHexDigits(t)
  }

  lemma ChunksOfThirds(t: string, w: nat)
    requires w > 0 && |t| == 3 * w
    ensures Chunks(t, w) == [t[..w], t[w..2 * w], t[2 * w..]]
  {
    var u := t[w..];
    assert u[..w] == t[w..2 * w];
    assert u[w..] == t[2 * w..];
    assert Chunks(u[w..], w) == [u[w..]];
  }

  lemma ChunksBeyondThirds(t: string, w: nat)
    requires w > 0 && |t| > 3 * w
    ensures |Chunks(t, w)| > 3
  {
    var u := t[w..];
    var v := u[w..];
    assert Chunks(t, w) == [t[..w]] + Chunks(u, w);
    assert Chunks(u, w) == [u[..w]] + Chunks(v, w);
    assert Chunks(v, w) == [v[..w]] + Chunks(v[w..], w);
    assert |Chunks(v[w..], w)| > 0;
  }

  /** `t` is all hex digits exactly when each of its three thirds is. */
  lemma ThirdsAreHex(t: string, w: nat)
    requires w > 0 && |t| == 3 * w
    ensures AllHexDigits(t) <==>
      AllHexDigits(t[..w]) && AllHexDigits(t[w..2 * w]) && AllHexDigits(t[2 * w..])
  {
    if AllHexDigits(t) {
      assert AllHexDigits(t[w..2 * w]) by {
        forall i | 0 <= i < w ensures IsHexDigit(t[w..2 * w][i]) {
          assert t[w..2 * w][i] == t[w + i];
        }
      }
      assert AllHexDigits(t[2 * w..]) by {
        forall i | 0 <= i < w ensures IsHexDigit(t[2 * w..][i]) {
          assert t[2 * w..][i] == t[2 * w + i];
        }
      }
    } else {
      var i :| 0 <= i < |t| && !IsHexDigit(t[i]);
      if i < w {
        assert t[..w][i] == t[i];
      } else if i < 2 * w {
        assert t[w..2 * w][i - w] == t[i];
      } else {
        assert t[2 * w..][i - 2 * w] == t[i];
      }
    }
  }

  /** The colour whose channels are the three equal thirds of `t` in base 16. */
  function ThirdsColor(t: string): Color
    requires WellFormedHex(t)
  {
    var w := |t| / 3;
    ThirdsAreHex(t, w);
    Color(ParseHex(t[..w]).value, ParseHex(t[w..2 * w]).value, ParseHex(t[2 * w..]).value)
  }

  /** Any number of `#`s in front of a string not starting with `#` is removed. */
  lemma {:induction false} StripHashes(k: nat, h: string)
    requires |h| > 0 && h[0] != '#'
    ensures StripLeading(seq(k, _ => '#') + h, '#') == h
  {
    if k > 0 {
      var s := seq(k, _ => '#') + h;
      assert s[1..] == seq(k - 1, _ => '#') + h;
      StripHashes(k - 1, h);
    } else {
      assert seq(k, _ => '#') + h == h;
    }
  }

  /** Rendering three bytes as `#RRGGBB` (with any number of `#`s) and decoding
      gives the same colour back. */
  lemma SixDigitRoundTrip(k: nat, r: nat, g: nat, b: nat)
    requires r < 256 && g < 256 && b < 256
    ensures FromHexRGB(seq(k, _ => '#') + ToHex(r, 2) + ToHex(g, 2) + ToHex(b, 2)) == Ok(Color(r, g, b))
  {
    var h := ToHex(r, 2) + ToHex(g, 2) + ToHex(b, 2);
    assert seq(k, _ => '#') + ToHex(r, 2) + ToHex(g, 2) + ToHex(b, 2) == seq(k, _ => '#') + h;
    assert IsHexDigit(h[0]);
    StripHashes(k, h);
    ChunksOfThirds(h, 2);
    assert h[..2] == ToHex(r, 2);
    assert h[2..4] == ToHex(g, 2);
    assert h[4..] == ToHex(b, 2);
    ParseToHex(r, 2);
    ParseToHex(g, 2);
    ParseToHex(b, 2);
  }

  /** A three-digit string gives three one-digit channels. */
  lemma ThreeDigitDecode(x: char, y: char, z: char)
    requires IsHexDigit(x) && IsHexDigit(y) && IsHexDigit(z)
    ensures FromHexRGB([x, y, z]) == Ok(Color(DigitValue(x), DigitValue(y), DigitValue(z)))
  {
    var h := [x, y, z];
    StripHashes(0, h);
    ChunksOfThirds(h, 1);
    assert [x, y, z][..1] == [x];
    assert [x, y, z][1..2] == [y];
    assert [x, y, z][2..] == [z];
  }

  lemma HexExample()
    ensures FromHexRGB("#FF8000") == Ok(Color(255, 128, 0))
  {
    assert ToHex(255, 2) == "FF" && ToHex(128, 2) == "80" && ToHex(0, 2) == "00";
    assert seq(1, _ => '#') + ToHex(255, 2) + ToHex(128, 2) + ToHex(0, 2) == "#FF8000";
    SixDigitRoundTrip(1, 255, 128, 0);
  }
}

=== FILE: decimal.dfy ===
/** Decimal rendering of integers, as Python's `%d` and `str()` produce it
    for the numeric request options, with its inverse. */
module Decimal {
  import opened Wrappers

  predicate IsDecDigit(c: char) {
    '0' <= c <= '9'
  }

  function DecChar(d: nat): (c: char)
    requires d < 10
    ensures IsDecDigit(c) && c as int - '0' as int == d
  {
    ('0' as int + d) as char
  }

  /** Digits of a natural number, no leading zeros: only zero starts with `0`. */
  function NatString(n: nat): (s: string)
    ensures |s| > 0
    ensures forall i :: 0 <= i < |s| ==> IsDecDigit(s[i])
    ensures s[0] == '0' <==> n == 0
  {
    if n < 10 then [DecChar(n)] else NatString(n / 10) + [DecChar(n % 10)]
  }

  /** `'%d' % n`: a minus sign exactly for negative numbers, then the digits
      with no leading zero, `0` for zero. The rendering reads back as `n`. */
  function IntString(n: int): (s: string)
    ensures |s| > 0
    ensures ParseInt(s) == Some(n)
    ensures (s[0] == '-') <==> n < 0
    ensures n >= 0 ==> IsDecDigit(s[0])
    ensures forall i :: 0 < i < |s| ==> IsDecDigit(s[i])
    ensures n < 0 ==> |s| > 1 && s[1] != '0'
    ensures n >= 0 && s[0] == '0' ==> s == "0"
  {
    if n < 0 then
      var d := NatString(-n);
      ParseNatString(-n);
      assert ("-" + d)[1..] == d;
      "-" + d
    else
      ParseNatString(n);
      assert IsDecDigit(NatString(n)[0]);
      NatString(n)
  }

  /** Reads a non-empty run of decimal digits. */
  function ParseNat(s: string): (r: Option<nat>)
    ensures r.Some? ==> |s| > 0
    decreases |s|
  {
    if |s| == 0 || !IsDecDigit(s[|s| - 1]) then None
    else
      var d := s[|s| - 1] as int - '0' as int;
      if |s| == 1 then Some(d)
      else
        match ParseNat(s[..|s| - 1])
        case None => None
        case Some(v) => Some(10 * v + d)
  }

  /** Reads an optionally negative decimal numeral. */
  function ParseInt(s: string): Option<int> {
    if |s| > 0 && s[0] == '-' then
      match ParseNat(s[1..])
      case None => None
      case Some(v) => Some(-(v as int))
    else
      match ParseNat(s)
      case None => None
      case Some(v) => Some(v)
  }

  lemma {:induction false} ParseNatString(n: nat)
    ensures ParseNat(NatString(n)) == Some(n)
  {
    var s := NatString(n);
    if n >= 10 {
      assert s[..|s| - 1] == NatString(n / 10);
      ParseNatString(n / 10);
    }
  }

  /** Distinct integers have distinct renderings. */
  lemma IntStringInjective(a: int, b: int)
    requires IntString(a) == IntString(b)
    ensures a == b
  {
  }
}

=== FILE: decoding.dfy ===
/** Turning the records of a fetched page into `Theme`s: the body of the
    inner `for` loop of `Kuler._fetch`, minus the markup lookups. */
module Decoding {
  import opened Wrappers
  import opened Colors
  import opened Themes

  /** One `kuler:themeitem` of a page: id, title and swatch hex strings. */
  datatype RawTheme = RawTheme(themeId: string, title: string, swatches: seq<string>)

  /** The swatch list comprehension: every swatch decoded, in order, or the
      first error; it succeeds exactly when every swatch decodes. */
  function DecodeColors(hexes: seq<string>): (r: Result<seq<Color>, HexError>)
    ensures r.Ok? <==> forall i :: 0 <= i < |hexes| ==> FromHexRGB(hexes[i]).Ok?
    ensures r.Ok? ==> |r.value| == |hexes|
    ensures r.Ok? ==> forall i :: 0 <= i < |hexes| ==> FromHexRGB(hexes[i]) == Ok(r.value[i])
  {
    DecodeEach(FromHexRGB, hexes)
  }

  /** A comprehension over `hexes` with decoder `f` that stops at the first
      error. */
  function DecodeEach(f: string -> Result<Color, HexError>, hexes: seq<string>): (r: Result<seq<Color>, HexError>)
    ensures r.Ok? <==> forall i :: 0 <= i < |hexes| ==> f(hexes[i]).Ok?
    ensures r.Ok? ==> |r.value| == |hexes|
    ensures r.Ok? ==> forall i :: 0 <= i < |hexes| ==> f(hexes[i]) == Ok(r.value[i])
  {
    if |hexes| == 0 then Ok([])
    else
      var head := f(hexes[0]);
      var rest := DecodeEach(f, hexes[1..]);
      assert forall i :: 0 <= i < |hexes| - 1 ==> hexes[1..][i] == hexes[i + 1];
      if head.Err? then Err(head.error)
      else if rest.Err? then Err(rest.error)
      else Ok([head.value] + rest.value)
  }

  /** One record turned into a `Theme`: same id and title, one colour per
      swatch in order; it fails exactly when some swatch does not decode. */
  function DecodeTheme(raw: RawTheme): (r: Result<Theme, HexError>)
    ensures r.Ok? ==> r.value.themeId == raw.themeId && r.value.title == raw.title
    ensures r.Ok? ==> Len(r.value) == |raw.swatches|
    ensures r.Ok? ==> forall i :: 0 <= i < |raw.swatches| ==> FromHexRGB(raw.swatches[i]) == Ok(Iter(r.value)[i])
    ensures r.Err? <==> exists i :: 0 <= i < |raw.swatches| && FromHexRGB(raw.swatches[i]).Err?
  {
    match DecodeColors(raw.swatches)
    case Err(e) => Err(e)
    case Ok(cs) => Ok(Theme(raw.themeId, raw.title, cs))
  }
}

=== FILE: hex.dfy ===
/** Base-16 numerals, as read by Python's `int(s, 16)` restricted to plain
    hexadecimal digits (no sign, no whitespace, no `0x` prefix). */
module HexDigits {
  import opened Wrappers

  predicate IsHexDigit(c: char) {
    ('0' <= c <= '9') || ('a' <= c <= 'f') || ('A' <= c <= 'F')
  }

  predicate AllHexDigits(s: string) {
    forall i :: 0 <= i < |s| ==> IsHexDigit(s[i])
  }

  /** The value of one digit; both letter cases are accepted. */
  function DigitValue(c: char): (d: nat)
    requires IsHexDigit(c)
    ensures d < 16
  {
    if '0' <= c <= '9' then c as int - '0' as int
    else if 'a' <= c <= 'f' then c as int - 'a' as int + 10
    else c as int - 'A' as int + 10
  }

  /** The upper-case digit of a value below 16. */
  function DigitChar(d: nat): (c: char)
    requires d < 16
    ensures IsHexDigit(c) && DigitValue(c) == d
  {
    if d < 10 then ('0' as int + d) as char else ('A' as int + d - 10) as char
  }

  function Pow16(n: nat): (p: nat)
    ensures p >= 1
  {
    if n == 0 then 1 else 16 * Pow16(n - 1)
  }

  /** `int(s, 16)`: defined exactly when `s` is a non-empty run of hex digits,
      and then below 16^|s|. */
  function ParseHex(s: string): (r: Option<nat>)
    ensures r.Some? <==> |s| > 0 && AllHexDigits(s)
    ensures r.Some? ==> r.value < Pow16(|s|)
    decreases |s|
  {
    if |s| == 0 then None
    else if !IsHexDigit(s[|s| - 1]) then None
    else if |s| == 1 then Some(DigitValue(s[0]))
    else
      match ParseHex(s[..|s| - 1])
      case None => None
      case Some(v) => Some(16 * v + DigitValue(s[|s| - 1]))
  }

  /** A digit with its letter, if any, in upper case. */
  function UpperDigit(c: char): (u: char)
    ensures IsHexDigit(c) ==> IsHexDigit(u) && DigitValue(u) == DigitValue(c)
  {
    if 'a' <= c <= 'f' then (c as int - 'a' as int + 'A' as int) as char else c
  }

  /** `s` with every hex letter in upper case. */
  function Upper(s: string): (u: string)
    ensures |u| == |s|
    ensures forall i :: 0 <= i < |s| ==> u[i] == UpperDigit(s[i])
  {
    seq(|s|, i requires 0 <= i < |s| => UpperDigit(s[i]))
  }

  /** The `width`-digit numeral of `n`, most significant digit first. */
  function ToHex(n: nat, width: nat): (s: string)
    requires n < Pow16(width)
    ensures |s| == width && AllHexDigits(s)
  {
    if width == 0 then ""
    else
      assert n / 16 < Pow16(width - 1);
      ToHex(n / 16, width - 1) + [DigitChar(n % 16)]
  }

  /** Parsing a rendered numeral gives its value back. */
  lemma {:induction false} ParseToHex(n: nat, width: nat)
    requires 0 < width && n < Pow16(width)
    ensures ParseHex(ToHex(n, width)) == Some(n)
  {
    var s := ToHex(n, width);
    if width == 1 {
      assert s == ToHex(n / 16, 0) + [DigitChar(n % 16)];
    } else {
      assert n / 16 < Pow16(width - 1);
      assert s[..|s| - 1] == ToHex(n / 16, width - 1);
      ParseToHex(n / 16, width - 1);
    }
  }

  /** `int(s, 16)` does not care about the case of the letters. */
  lemma {:induction false} ParseHexIgnoresCase(s: string)
    ensures ParseHex(Upper(s)) == ParseHex(s)
    decreases |s|
  {
    var u := Upper(s);
    if |s| > 0 {
      var c := s[|s| - 1];
      assert u[|s| - 1] == UpperDigit(c);
      assert IsHexDigit(UpperDigit(c)) <==> IsHexDigit(c);
      if |s| > 1 {
        var p := s[..|s| - 1];
        assert u[..|s| - 1] == Upper(p);
        ParseHexIgnoresCase(p);
      }
    }
  }

  lemma DigitCharOfValue(c: char)
    requires IsHexDigit(c)
    ensures DigitChar(DigitValue(c)) == UpperDigit(c)
  {
  }

  /** Reading a numeral and writing the value back at the same width gives the
      numeral in upper case: the value `int(s, 16)` gives is the one `s` spells,
      whatever the case of its letters. */
  lemma {:induction false} ToHexOfParse(s: string)
    requires ParseHex(s).Some?
    ensures ToHex(ParseHex(s).value, |s|) == Upper(s)
    decreases |s|
  {
    var v := ParseHex(s).value;
    var c := s[|s| - 1];
    DigitCharOfValue(c);
    if |s| == 1 {
      assert ToHex(v, 1) == ToHex(v / 16, 0) + [DigitChar(v % 16)];
      assert Upper(s) == [UpperDigit(c)];
    } else {
      var p := s[..|s| - 1];
      var vp := ParseHex(p).value;
      assert v == 16 * vp + DigitValue(c);
      assert v / 16 == vp && v % 16 == DigitValue(c);
      ToHexOfParse(p);
      assert Upper(s) == Upper(p) + [UpperDigit(c)];
    }
  }

  lemma LowerCaseExample()
    ensures ParseHex("ff") == Some(255)
  {
    assert "ff"[..1] == "f";
  }
}

=== FILE: kuler.dfy ===
/** `Kuler` of src/kuler.py: a client holding an API key and an injected
    fetch, whose `search` and `list` feed the paging loop. */
module Kuler {
  import opened Wrappers
  import opened Decimal
  import opened Requests
  import opened Decoding
  import opened Pagination

  /** `Kuler(apiKey, urlFetch)`; `urlFetch` already includes the markup parser. */
  datatype Client = Client(apiKey: string, urlFetch: string -> Option<Page>)

  // The keyword defaults of `search` and `list`, as written.
  const DefaultStartIndex: int := 0
  const DefaultItemsPerPage: int := 20
  const DefaultMaxItems: Option<int> := Some(100)
  const DefaultListType: string := "raiting"
  const DefaultTimeSpan: int := 0

  /** The loop inputs for one call of `_fetch` on `service` with `opts`: the
      cursor-`c` request is the page URL for `c` under the client's key, the
      client's fetch and the record decoder are used as they are, and
      different cursors give different URLs. */
  function MakeFeed(k: Client, service: string, opts: Options, maxItems: Option<int>): (feed: Feed)
    ensures forall c :: feed.request(c) == PageUrl(service, opts, c, k.apiKey)
    ensures feed.fetch == k.urlFetch && feed.decode == DecodeTheme && feed.maxItems == maxItems
    ensures DistinctRequests(feed)
  {
    PageUrlInjective(service, opts, k.apiKey);
    Feed(c => PageUrl(service, opts, c, k.apiKey), k.urlFetch, DecodeTheme, maxItems)
  }

  /** `Kuler.search(...)`, consumed to the end: no truthy criterion raises
      before anything is fetched; otherwise the k-th request is the search
      URL for cursor `startIndex + k`, and the run shows the paging loop's
      facts: its themes, the limit test and why it stopped. */
  function Search(k: Client, criteria: Criteria, startIndex: int, itemsPerPage: int,
                  maxItems: Option<int>, fuel: nat): (r: Result<Run, ArgumentError>)
    ensures r.Err? <==> forall i :: 0 <= i < |Fields(criteria)| ==> !Truthy(Fields(criteria)[i].1)
    ensures r.Ok? ==> SearchQuery(criteria).Ok? && forall j :: 0 <= j < |r.value.urls| ==>
      r.value.urls[j] == PageUrl(SearchService, SearchOptions(SearchQuery(criteria).value, itemsPerPage),
                                 startIndex + j, k.apiKey)
    ensures r.Ok? ==> RunFacts(MakeFeed(k, SearchService, SearchOptions(SearchQuery(criteria).value, itemsPerPage),
                                        maxItems), startIndex, 0, fuel, r.value)
  {
    SearchQueryPrecedence(criteria);
    match SearchQuery(criteria)
    case Err(e) => Err(e)
    case Ok(q) =>
      Ok(FetchAll(MakeFeed(k, SearchService, SearchOptions(q, itemsPerPage), maxItems), startIndex, fuel))
  }

  /** `Kuler.list(...)`, consumed to the end: the k-th request is the listing
      URL for cursor `startIndex + k`, and the run shows the paging loop's
      facts. */
  function List(k: Client, listType: string, startIndex: int, itemsPerPage: int, timeSpan: int,
                maxItems: Option<int>, fuel: nat): (r: Run)
    ensures forall j :: 0 <= j < |r.urls| ==>
      r.urls[j] == PageUrl(ListService, ListOptions(listType, itemsPerPage, timeSpan), startIndex + j, k.apiKey)
    ensures RunFacts(MakeFeed(k, ListService, ListOptions(listType, itemsPerPage, timeSpan), maxItems),
                     startIndex, 0, fuel, r)
  {
    FetchAll(MakeFeed(k, ListService, ListOptions(listType, itemsPerPage, timeSpan), maxItems), startIndex, fuel)
  }

  /** No page is requested twice within one `list` call. */
  lemma ListRequestsOnce(k: Client, listType: string, startIndex: int, itemsPerPage: int, timeSpan: int,
                         maxItems: Option<int>, fuel: nat)
    ensures forall i, j :: 0 <= i < j < |List(k, listType, startIndex, itemsPerPage, timeSpan, maxItems, fuel).urls| ==>
      List(k, listType, startIndex, itemsPerPage, timeSpan, maxItems, fuel).urls[i]
      != List(k, listType, startIndex, itemsPerPage, timeSpan, maxItems, fuel).urls[j]
  {
    var opts := ListOptions(listType, itemsPerPage, timeSpan);
    var feed := MakeFeed(k, ListService, opts, maxItems);
    LoopUrlsDistinct(feed, startIndex, 0, fuel);
    assert List(k, listType, startIndex, itemsPerPage, timeSpan, maxItems, fuel) == Loop(feed, startIndex, 0, fuel);
  }

  /** `search()` with every criterion omitted or empty raises before any fetch. */
  lemma SearchWithoutCriterion(k: Client, c: Criteria, startIndex: int, itemsPerPage: int,
                               maxItems: Option<int>, fuel: nat)
    requires !Truthy(c.themeID) && !Truthy(c.userID) && !Truthy(c.email)
    requires !Truthy(c.tag) && !Truthy(c.hex) && !Truthy(c.title)
    ensures Search(k, c, startIndex, itemsPerPage, maxItems, fuel) == Err(NoCriterion)
  {
  }

  // ---------------------------------------------------------------------
  // The two scenarios of src/test/test_kuler.py

  /** A fetch stub that answers every request with the same one-record page. */
  function OneResultPerPage(raw: RawTheme): string -> Option<Page> {
    u => Some([raw])
  }

  /** `list(maxItems=n, itemsPerPage=1)` on client `key1` with that stub. */
  function ListingRun(n: nat, raw: RawTheme, fuel: nat): Run {
    List(Client("key1", OneResultPerPage(raw)), DefaultListType, DefaultStartIndex, 1, DefaultTimeSpan, Some(n), fuel)
  }

  lemma ListingHead()
    ensures "http://kuler-api.adobe.com/rss/get.cfm?listType=" + "raiting" + "&itemsPerPage=" + "1"
        + "&timeSpan=" + "0" + "&startIndex="
      == "http://kuler-api.adobe.com/rss/get.cfm?listType=raiting&itemsPerPage=1&timeSpan=0&startIndex="
  {
    var h1 := "http://kuler-api.adobe.com/rss/get.cfm?listType=" + "raiting";
    assert h1 == "http://kuler-api.adobe.com/rss/get.cfm?listType=raiting";
    var h2 := h1 + "&itemsPerPage=";
    assert h2 == "http://kuler-api.adobe.com/rss/get.cfm?listType=raiting&itemsPerPage=";
    var h3 := h2 + "1";
    assert h3 == "http://kuler-api.adobe.com/rss/get.cfm?listType=raiting&itemsPerPage=1";
    var h4 := h3 + "&timeSpan=";
    assert h4 == "http://kuler-api.adobe.com/rss/get.cfm?listType=raiting&itemsPerPage=1&timeSpan=";
    var h5 := h4 + "0";
    assert h5 == "http://kuler-api.adobe.com/rss/get.cfm?listType=raiting&itemsPerPage=1&timeSpan=0";
  }

  lemma ListingLiteral(c: string)
    ensures "http://kuler-api.adobe.com/rss/get.cfm?listType=" + "raiting" + "&itemsPerPage=" + "1"
        + "&timeSpan=" + "0" + "&startIndex=" + c + "&key=" + "key1"
      == "http://kuler-api.adobe.com/rss/get.cfm?listType=raiting&itemsPerPage=1&timeSpan=0&startIndex="
         + c + "&key=key1"
  {
    ListingHead();
    var h := "http://kuler-api.adobe.com/rss/get.cfm?listType=raiting&itemsPerPage=1&timeSpan=0&startIndex=";
    Assoc(h + c, "&key=", "key1");
    assert "&key=" + "key1" == "&key=key1";
  }

  /** The listing URL of the test for cursor `i`, spelled out. */
  lemma ListingUrl(i: int)
    ensures PageUrl(ListService, ListOptions(DefaultListType, 1, DefaultTimeSpan), i, "key1")
      == "http://kuler-api.adobe.com/rss/get.cfm?listType=raiting&itemsPerPage=1&timeSpan=0&startIndex="
         + IntString(i) + "&key=key1"
  {
    ListUrlShape(DefaultListType, 1, DefaultTimeSpan, i, "key1");
    assert IntString(1) == "1" && IntString(0) == "0";
    ListingLiteral(IntString(i));
  }

  /** The listing run of the test is the paging loop from cursor 0 on the
      one-record stub. */
  lemma ListingRunCounts(n: nat, raw: RawTheme, fuel: nat)
    requires DecodeTheme(raw).Ok? && fuel >= n
    ensures |ListingRun(n, raw, fuel).themes| == n
    ensures |ListingRun(n, raw, fuel).urls| == n
    ensures ListingRun(n, raw, fuel).stop == MaxReached
  {
    var k := Client("key1", OneResultPerPage(raw));
    var feed := MakeFeed(k, ListService, ListOptions(DefaultListType, 1, DefaultTimeSpan), Some(n));
    forall u ensures feed.fetch(u) == Some([raw]) {
      assert feed.fetch == OneResultPerPage(raw);
    }
    assert OneRecordPages(feed, raw);
    OneRecordPerPage(feed, raw, 0, 0, fuel);
  }

  /** With one record per page and a limit of `n`, exactly `n` themes come out
      of exactly `n` fetches, and fetch `i` asks for cursor `i` with every
      other option unchanged. */
  lemma ListingWithMaxItemsCount(n: nat, raw: RawTheme, fuel: nat)
    requires DecodeTheme(raw).Ok? && fuel >= n
    ensures |ListingRun(n, raw, fuel).themes| == n
    ensures |ListingRun(n, raw, fuel).urls| == n
    ensures forall i :: 0 <= i < |ListingRun(n, raw, fuel).urls| ==>
      ListingRun(n, raw, fuel).urls[i]
      == "http://kuler-api.adobe.com/rss/get.cfm?listType=raiting&itemsPerPage=1&timeSpan=0&startIndex="
         + IntString(i) + "&key=key1"
  {
    ListingRunCounts(n, raw, fuel);
    var r := ListingRun(n, raw, fuel);
    forall i | 0 <= i < |r.urls|
      ensures r.urls[i]
        == "http://kuler-api.adobe.com/rss/get.cfm?listType=raiting&itemsPerPage=1&timeSpan=0&startIndex="
           + IntString(i) + "&key=key1"
    {
      ListingUrl(i);
    }
  }

  /** The URL of the first request of `search(themeID='themeId')`. */
  function FirstSearchUrl(): string {
    PageUrl(SearchService, SearchOptions("themeID:themeId", DefaultItemsPerPage), DefaultStartIndex, "key1")
  }

  /** The stub of the search test: the first request gets the one-result page,
      every later one an empty page. */
  function SearchStub(raw: RawTheme): string -> Option<Page> {
    u => if u == FirstSearchUrl() then Some([raw]) else Some([])
  }

  function SearchRun(raw: RawTheme, fuel: nat): Result<Run, ArgumentError> {
    Search(Client("key1", SearchStub(raw)), Criteria(Some("themeId"), None, None, None, None, None),
           DefaultStartIndex, DefaultItemsPerPage, DefaultMaxItems, fuel)
  }

  /** `search(themeID='themeId')` against that stub yields exactly the one
      theme, with the record's title, and ends on the empty second page: the
      one-record first page, shorter than the page size of 20, does not end
      the run. */
  lemma SearchTest(raw: RawTheme, fuel: nat)
    requires DecodeTheme(raw).Ok? && fuel >= 2
    ensures SearchRun(raw, fuel).Ok?
    ensures SearchRun(raw, fuel).value.themes == [DecodeTheme(raw).value]
    ensures SearchRun(raw, fuel).value.themes[0].title == raw.title
    ensures |SearchRun(raw, fuel).value.urls| == 2
    ensures SearchRun(raw, fuel).value.stop == EmptyPage
  {
    var k := Client("key1", SearchStub(raw));
    var c := Criteria(Some("themeId"), None, None, None, None, None);
    ThemeIdQuery();
    var opts := SearchOptions("themeID:themeId", DefaultItemsPerPage);
    var feed := MakeFeed(k, SearchService, opts, DefaultMaxItems);
    assert feed.request(0) == PageUrl(SearchService, opts, 0, "key1");
    assert feed.request(0) == FirstSearchUrl();
    assert feed.request(1) != FirstSearchUrl() by {
      assert DistinctRequests(feed);
    }
    var page := [raw];
    assert page[1..] == [];
    assert feed.fetch(feed.request(0)) == Some(page);
    assert DecodePage(feed.decode, page) == PageDecode([DecodeTheme(raw).value], None);
    assert StepAt(feed, 0) == Next([DecodeTheme(raw).value]);
    assert StepAt(feed, 1) == Halt([], EmptyPage);
    assert Loop(feed, 1, 1, fuel - 1) == Run([], [feed.request(1)], EmptyPage);
    assert Loop(feed, 0, 0, fuel) == Run([DecodeTheme(raw).value], [feed.request(0), feed.request(1)], EmptyPage);
    assert SearchRun(raw, fuel) == Ok(Loop(feed, 0, 0, fuel));
  }

  /** The query of `search(themeID='themeId')`. */
  lemma ThemeIdQuery()
    ensures SearchQuery(Criteria(Some("themeId"), None, None, None, None, None)) == Ok("themeID:themeId")
  {
    assert "themeID:" + "themeId" == "themeID:themeId";
  }
}

=== FILE: pagination.dfy ===
/** `Kuler._fetch`: the paging loop. The network call and the markup parser
    are folded into one injected function from a request URL to the page's
    already-decoded records (`None` is a transport error). */
module Pagination {
  import opened Wrappers
  import opened Colors
  import opened Themes
  import opened Decoding

  type Page = seq<RawTheme>

  /** Why a run ended in an exception. */
  datatype Failure = Transport | BadSwatch(error: HexError)

  /** How a run ended. `OutOfFuel` is the model's bound on the number of
      fetches and has no counterpart in the source. */
  datatype Stop = MaxReached | EmptyPage | Failed(failure: Failure) | OutOfFuel

  /** Everything a fully consumed generator shows: the themes it yielded, the
      URLs it requested, in order, and how it ended. */
  datatype Run = Run(themes: seq<Theme>, urls: seq<string>, stop: Stop)

  /** The fixed inputs of one `_fetch` call: the request URL for each page
      cursor (service, options and key already filled in), the injected fetch,
      the decoder applied to each record, and the item limit (`None` for no
      limit). */
  datatype Feed = Feed(
    request: int -> string,
    fetch: string -> Option<Page>,
    decode: RawTheme -> Result<Theme, HexError>,
    maxItems: Option<int>)

  /** The themes a page yields before the first record that fails, and that
      record's error if there is one. */
  datatype PageDecode = PageDecode(themes: seq<Theme>, error: Option<HexError>)

  function DecodePage(decode: RawTheme -> Result<Theme, HexError>, page: Page): (d: PageDecode)
    ensures |d.themes| <= |page|
    ensures forall i :: 0 <= i < |d.themes| ==> decode(page[i]) == Ok(d.themes[i])
    ensures d.error.None? ==> |d.themes| == |page|
    ensures d.error.Some? ==> |d.themes| < |page| && decode(page[|d.themes|]) == Err(d.error.value)
  {
    if |page| == 0 then PageDecode([], None)
    else
      match decode(page[0])
      case Err(e) => PageDecode([], Some(e))
      case Ok(t) =>
        var rest := DecodePage(decode, page[1..]);
        PageDecode([t] + rest.themes, rest.error)
  }

  /** The `while` condition: no limit, or fewer items emitted than the limit. */
  predicate MayFetch(maxItems: Option<int>, count: int) {
    maxItems.None? || count < maxItems.value
  }

  /** Different cursors give different URLs. */
  ghost predicate DistinctRequests(feed: Feed) {
    forall a, b :: feed.request(a) == feed.request(b) ==> a == b
  }

  /** What one pass of the loop body does with the page at `cursor`: end the
      run (with the themes yielded before that) or go on to the next page. */
  datatype Step = Halt(themes: seq<Theme>, stop: Stop) | Next(themes: seq<Theme>)

  /** One pass of the loop body once the limit test has passed: request the
      page, stop on a transport error or an empty page, otherwise yield the
      decoded records, stopping at an undecodable swatch. */
  function StepAt(feed: Feed, cursor: int): (s: Step)
    ensures s.Next? ==> feed.fetch(feed.request(cursor)).Some? && |feed.fetch(feed.request(cursor)).value| == |s.themes| > 0
  {
    match feed.fetch(feed.request(cursor))
    case None => Halt([], Failed(Transport))
    case Some(page) =>
      if |page| == 0 then Halt([], EmptyPage)
      else
        var d := DecodePage(feed.decode, page);
        if d.error.Some? then Halt(d.themes, Failed(BadSwatch(d.error.value)))
        else Next(d.themes)
  }

  /** The loop from page cursor `cursor` with `count` items already emitted,
      allowed at most `fuel` more fetches. The k-th request asks for cursor
      `cursor + k`. */
  function Loop(feed: Feed, cursor: int, count: int, fuel: nat): (r: Run)
    ensures |r.urls| <= fuel
    decreases fuel
  {
    if !MayFetch(feed.maxItems, count) then Run([], [], MaxReached)
    else if fuel == 0 then Run([], [], OutOfFuel)
    else
      match StepAt(feed, cursor)
      case Halt(ts, stop) => Run(ts, [feed.request(cursor)], stop)
      case Next(ts) =>
        var rest := Loop(feed, cursor + 1, count + |ts|, fuel - 1);
        Run(ts + rest.themes, [feed.request(cursor)] + rest.urls, rest.stop)
  }

  /** The k-th request of a run asks for cursor `cursor + k`: the cursor
      moves by one page per request, whatever the page size. */
  lemma {:induction false} LoopUrls(feed: Feed, cursor: int, count: int, fuel: nat)
    ensures forall k :: 0 <= k < |Loop(feed, cursor, count, fuel).urls| ==>
      Loop(feed, cursor, count, fuel).urls[k] == feed.request(cursor + k)
    decreases fuel
  {
    if MayFetch(feed.maxItems, count) && fuel > 0 && StepAt(feed, cursor).Next? {
      var ts := StepAt(feed, cursor).themes;
      var k1, c1, f1 := cursor + 1, count + |ts|, fuel - 1;
      LoopUrls(feed, k1, c1, f1);
      var r := Loop(feed, cursor, count, fuel);
      var rest := Loop(feed, k1, c1, f1);
      forall k | 0 <= k < |r.urls| ensures r.urls[k] == feed.request(cursor + k) {
        if k > 0 {
          assert r.urls[k] == rest.urls[k - 1];
        }
      }
    }
  }

  /** `_fetch(service, startIndex, maxItems, **options)` consumed to the end:
      the k-th request asks for cursor `startIndex + k`, and the themes are
      those of the pages fetched, in order. */
  function FetchAll(feed: Feed, startIndex: int, fuel: nat): (r: Run)
    ensures |r.urls| <= fuel
    ensures forall k :: 0 <= k < |r.urls| ==> r.urls[k] == feed.request(startIndex + k)
    ensures r.themes == ThemesUpTo(feed, startIndex, |r.urls|)
    ensures RunFacts(feed, startIndex, 0, fuel, r)
  {
    LoopRunFacts(feed, startIndex, 0, fuel);
    Loop(feed, startIndex, 0, fuel)
  }

  // ---------------------------------------------------------------------
  // A page-by-page reference view of a run

  /** The themes of the first `k` pages from `cursor`, concatenated. */
  function ThemesUpTo(feed: Feed, cursor: int, k: nat): seq<Theme>
    decreases k
  {
    if k == 0 then [] else StepAt(feed, cursor).themes + ThemesUpTo(feed, cursor + 1, k - 1)
  }

  /** One more page adds its themes at the end. */
  lemma {:induction false} ThemesUpToSnoc(feed: Feed, cursor: int, k: nat)
    ensures ThemesUpTo(feed, cursor, k + 1) == ThemesUpTo(feed, cursor, k) + StepAt(feed, cursor + k).themes
    decreases k
  {
    if k > 0 {
      var c1, k1 := cursor + 1, k - 1;
      ThemesUpToSnoc(feed, c1, k1);
      var a, b, d := StepAt(feed, cursor).themes, ThemesUpTo(feed, c1, k1), StepAt(feed, cursor + k).themes;
      assert ThemesUpTo(feed, c1, k) == b + d;
      assert a + (b + d) == a + b + d;
    }
  }

  /** The page requested at `url` arrives, is non-empty and decodes completely. */
  predicate FullPage(feed: Feed, url: string) {
    match feed.fetch(url)
    case None => false
    case Some(p) => |p| > 0 && DecodePage(feed.decode, p).error.None?
  }

  lemma FullPageIsNext(feed: Feed, cursor: int)
    ensures FullPage(feed, feed.request(cursor)) <==> StepAt(feed, cursor).Next?
  {
  }

  /** The run yields every theme of every page it fetched, page by page in
      cursor order, and nothing else. */
  lemma {:induction false} LoopEmitsWholePages(feed: Feed, cursor: int, count: int, fuel: nat)
    ensures var r := Loop(feed, cursor, count, fuel); r.themes == ThemesUpTo(feed, cursor, |r.urls|)
    decreases fuel
  {
    if MayFetch(feed.maxItems, count) && fuel > 0 && StepAt(feed, cursor).Next? {
      var ts := StepAt(feed, cursor).themes;
      var k1, c1, f1 := cursor + 1, count + |ts|, fuel - 1;
      var rest := Loop(feed, k1, c1, f1);
      LoopEmitsWholePages(feed, k1, c1, f1);
    }
  }

  /** A fetch happens only while the limit allows it, judged on the items
      emitted before it; a run that ends on the limit has reached it. */
  lemma {:induction false} LoopFetchGuard(feed: Feed, cursor: int, count: int, fuel: nat)
    ensures var r := Loop(feed, cursor, count, fuel);
      forall k :: 0 <= k < |r.urls| ==> MayFetch(feed.maxItems, count + |ThemesUpTo(feed, cursor, k)|)
    ensures var r := Loop(feed, cursor, count, fuel);
      r.stop == MaxReached ==> !MayFetch(feed.maxItems, count + |r.themes|)
    decreases fuel
  {
    var r := Loop(feed, cursor, count, fuel);
    if MayFetch(feed.maxItems, count) && fuel > 0 && StepAt(feed, cursor).Next? {
      var ts := StepAt(feed, cursor).themes;
      var k1, c1, f1 := cursor + 1, count + |ts|, fuel - 1;
      var rest := Loop(feed, k1, c1, f1);
      LoopFetchGuard(feed, k1, c1, f1);
      forall k | 0 <= k < |r.urls|
        ensures MayFetch(feed.maxItems, count + |ThemesUpTo(feed, cursor, k)|)
      {
        if k > 0 {
          assert MayFetch(feed.maxItems, c1 + |ThemesUpTo(feed, k1, k - 1)|);
        }
      }
    }
  }

  /** Every page of a run but the last was full: only the last fetch can
      end it. */
  lemma {:induction false} LoopFullBeforeLast(feed: Feed, cursor: int, count: int, fuel: nat)
    ensures forall k :: 0 <= k < |Loop(feed, cursor, count, fuel).urls| - 1 ==>
      FullPage(feed, Loop(feed, cursor, count, fuel).urls[k])
    decreases fuel
  {
    var r := Loop(feed, cursor, count, fuel);
    if MayFetch(feed.maxItems, count) && fuel > 0 && StepAt(feed, cursor).Next? {
      var ts := StepAt(feed, cursor).themes;
      var k1, c1, f1 := cursor + 1, count + |ts|, fuel - 1;
      var rest := Loop(feed, k1, c1, f1);
      LoopFullBeforeLast(feed, k1, c1, f1);
      assert r.urls == [feed.request(cursor)] + rest.urls;
      FullPageIsNext(feed, cursor);
      forall k | 0 <= k < |r.urls| - 1 ensures FullPage(feed, r.urls[k]) {
        if k == 0 {
          assert r.urls[0] == feed.request(cursor);
        } else {
          assert r.urls[k] == rest.urls[k - 1];
        }
      }
    }
  }

  /** The run ends on an empty page exactly when its last page is empty, on a
      transport error exactly when its last fetch failed, and on a bad swatch
      only when its last page holds one. */
  lemma {:induction false} LoopLastPage(feed: Feed, cursor: int, count: int, fuel: nat)
    ensures var r := Loop(feed, cursor, count, fuel);
      r.stop == EmptyPage <==> |r.urls| > 0 && feed.fetch(r.urls[|r.urls| - 1]) == Some([])
    ensures var r := Loop(feed, cursor, count, fuel);
      r.stop == Failed(Transport) <==> |r.urls| > 0 && feed.fetch(r.urls[|r.urls| - 1]).None?
    ensures var r := Loop(feed, cursor, count, fuel);
      r.stop.Failed? && r.stop.failure.BadSwatch? ==>
        |r.urls| > 0 && feed.fetch(r.urls[|r.urls| - 1]).Some?
        && DecodePage(feed.decode, feed.fetch(r.urls[|r.urls| - 1]).value).error == Some(r.stop.failure.error)
    decreases fuel
  {
    var r := Loop(feed, cursor, count, fuel);
    if MayFetch(feed.maxItems, count) && fuel > 0 && StepAt(feed, cursor).Next? {
      var ts := StepAt(feed, cursor).themes;
      var k1, c1, f1 := cursor + 1, count + |ts|, fuel - 1;
      var rest := Loop(feed, k1, c1, f1);
      LoopLastPage(feed, k1, c1, f1);
      assert r == Run(ts + rest.themes, [feed.request(cursor)] + rest.urls, rest.stop);
      FullPageIsNext(feed, cursor);
      if |rest.urls| > 0 {
        assert r.urls[|r.urls| - 1] == rest.urls[|rest.urls| - 1];
      } else {
        assert rest.stop == MaxReached || rest.stop == OutOfFuel;
      }
    }
  }

  /** A run ends on the limit or on the fuel only after a full page, and on
      the fuel only with the limit still open and every fetch spent. */
  lemma {:induction false} LoopEndsAfterFullPage(feed: Feed, cursor: int, count: int, fuel: nat)
    ensures var r := Loop(feed, cursor, count, fuel);
      r.stop == OutOfFuel ==> MayFetch(feed.maxItems, count + |r.themes|) && |r.urls| == fuel
    ensures var r := Loop(feed, cursor, count, fuel);
      (r.stop == MaxReached || r.stop == OutOfFuel) && |r.urls| > 0 ==> FullPage(feed, r.urls[|r.urls| - 1])
    decreases fuel
  {
    var r := Loop(feed, cursor, count, fuel);
    if MayFetch(feed.maxItems, count) && fuel > 0 {
      FullPageIsNext(feed, cursor);
      if StepAt(feed, cursor).Next? {
        var ts := StepAt(feed, cursor).themes;
        var k1, c1, f1 := cursor + 1, count + |ts|, fuel - 1;
        var rest := Loop(feed, k1, c1, f1);
        LoopEndsAfterFullPage(feed, k1, c1, f1);
        assert r == Run(ts + rest.themes, [feed.request(cursor)] + rest.urls, rest.stop);
        if |rest.urls| > 0 {
          assert r.urls[|r.urls| - 1] == rest.urls[|rest.urls| - 1];
        } else {
          assert r.urls[0] == feed.request(cursor);
        }
      }
    }
  }

  /** Every run `Loop` describes shows the facts of `RunFacts`. */
  lemma LoopRunFacts(feed: Feed, cursor: int, count: int, fuel: nat)
    ensures RunFacts(feed, cursor, count, fuel, Loop(feed, cursor, count, fuel))
  {
    LoopUrls(feed, cursor, count, fuel);
    LoopEmitsWholePages(feed, cursor, count, fuel);
    LoopFetchGuard(feed, cursor, count, fuel);
    LoopFullBeforeLast(feed, cursor, count, fuel);
    LoopLastPage(feed, cursor, count, fuel);
    LoopEndsAfterFullPage(feed, cursor, count, fuel);
  }

  /** A full last page never ends a run by itself: only the limit (or the
      model's fuel) can stop the loop after it. */
  lemma {:induction false} LoopFullPageContinues(feed: Feed, cursor: int, count: int, fuel: nat)
    ensures var r := Loop(feed, cursor, count, fuel);
      |r.urls| > 0 && FullPage(feed, r.urls[|r.urls| - 1]) ==> r.stop == MaxReached || r.stop == OutOfFuel
    decreases fuel
  {
    var r := Loop(feed, cursor, count, fuel);
    if MayFetch(feed.maxItems, count) && fuel > 0 {
      FullPageIsNext(feed, cursor);
      if StepAt(feed, cursor).Next? {
        var ts := StepAt(feed, cursor).themes;
        var k1, c1, f1 := cursor + 1, count + |ts|, fuel - 1;
        var rest := Loop(feed, k1, c1, f1);
        LoopFullPageContinues(feed, k1, c1, f1);
        assert r == Run(ts + rest.themes, [feed.request(cursor)] + rest.urls, rest.stop);
        if |rest.urls| > 0 {
          assert r.urls[|r.urls| - 1] == rest.urls[|rest.urls| - 1];
        } else {
          assert rest.stop == MaxReached || rest.stop == OutOfFuel;
        }
      }
    }
  }

  /** With a limit of `n`, every fetch that continues the run emits at least
      one item, so `n - count` fetches always suffice. */
  lemma {:induction false} FuelSuffices(feed: Feed, cursor: int, count: int, fuel: nat)
    requires feed.maxItems.Some? && fuel >= feed.maxItems.value - count
    ensures Loop(feed, cursor, count, fuel).stop != OutOfFuel
    decreases fuel
  {
    if MayFetch(feed.maxItems, count) && fuel > 0 && StepAt(feed, cursor).Next? {
      var ts := StepAt(feed, cursor).themes;
      var k1, c1, f1 := cursor + 1, count + |ts|, fuel - 1;
      FuelSuffices(feed, k1, c1, f1);
    }
  }

  /** Once a run ends without exhausting its fuel, more fuel changes nothing:
      the bound is then invisible. */
  lemma {:induction false} FuelIrrelevant(feed: Feed, cursor: int, count: int, fuel: nat, more: nat)
    requires Loop(feed, cursor, count, fuel).stop != OutOfFuel && fuel <= more
    ensures Loop(feed, cursor, count, more) == Loop(feed, cursor, count, fuel)
    decreases fuel
  {
    if MayFetch(feed.maxItems, count) && fuel > 0 && StepAt(feed, cursor).Next? {
      var ts := StepAt(feed, cursor).themes;
      var k1, c1, f1, m1 := cursor + 1, count + |ts|, fuel - 1, more - 1;
      FuelIrrelevant(feed, k1, c1, f1, m1);
    }
  }

  /** No URL is requested twice in one run, so a fetch that depends only on
      the URL can answer each request differently, as a stateful stub does. */
  lemma LoopUrlsDistinct(feed: Feed, cursor: int, count: int, fuel: nat)
    requires DistinctRequests(feed)
    ensures var r := Loop(feed, cursor, count, fuel);
      forall i, j :: 0 <= i < j < |r.urls| ==> r.urls[i] != r.urls[j]
  {
    var r := Loop(feed, cursor, count, fuel);
    LoopUrls(feed, cursor, count, fuel);
    forall i, j | 0 <= i < j < |r.urls| ensures r.urls[i] != r.urls[j] {
      assert r.urls[i] == feed.request(cursor + i) && r.urls[j] == feed.request(cursor + j);
    }
  }

  /** A feed whose every page holds the one record `raw`, which decodes. */
  ghost predicate OneRecordPages(feed: Feed, raw: RawTheme) {
    && feed.decode(raw).Ok?
    && forall u :: feed.fetch(u) == Some([raw])
  }

  /** One record per page and a limit of `n`: exactly `n - count` records come
      out after exactly `n - count` fetches, and the run ends on the limit. */
  lemma {:induction false} OneRecordPerPage(feed: Feed, raw: RawTheme, cursor: int, count: int, fuel: nat)
    requires OneRecordPages(feed, raw)
    requires feed.maxItems.Some? && count <= feed.maxItems.value && fuel >= feed.maxItems.value - count
    ensures var r := Loop(feed, cursor, count, fuel);
      && |r.themes| == feed.maxItems.value - count
      && |r.urls| == feed.maxItems.value - count
      && r.stop == MaxReached
      && forall i :: 0 <= i < |r.themes| ==> r.themes[i] == feed.decode(raw).value
    decreases fuel
  {
    if count < feed.maxItems.value {
      var page := feed.fetch(feed.request(cursor)).value;
      assert page == [raw];
      assert page[1..] == [];
      assert StepAt(feed, cursor) == Next([feed.decode(raw).value]);
      var k1, c1, f1 := cursor + 1, count + 1, fuel - 1;
      OneRecordPerPage(feed, raw, k1, c1, f1);
    }
  }

  /** The limit is checked only between pages: with a limit of 1 and a first
      page of two records, both records come out. */
  lemma Overshoot(feed: Feed, a: RawTheme, b: RawTheme, fuel: nat)
    requires feed.maxItems == Some(1) && fuel >= 1
    requires feed.fetch(feed.request(0)) == Some([a, b])
    requires feed.decode(a).Ok? && feed.decode(b).Ok?
    ensures var r := Loop(feed, 0, 0, fuel);
      r.themes == [feed.decode(a).value, feed.decode(b).value] && |r.themes| > 1 && r.stop == MaxReached
  {
    var page := [a, b];
    assert page[1..] == [b];
    assert page[1..][1..] == [];
    assert StepAt(feed, 0) == Next([feed.decode(a).value, feed.decode(b).value]);
  }

  /** `DecodePage` is the only split of a page into a decoded prefix and,
      when it stops early, the error of the record right after it. */
  lemma {:induction false} DecodePageCharacterised(decode: RawTheme -> Result<Theme, HexError>, page: Page,
                                                   themes: seq<Theme>, error: Option<HexError>)
    requires |themes| <= |page|
    requires forall j :: 0 <= j < |themes| ==> decode(page[j]) == Ok(themes[j])
    requires error.None? ==> |themes| == |page|
    requires error.Some? ==> |themes| < |page| && decode(page[|themes|]) == Err(error.value)
    ensures DecodePage(decode, page) == PageDecode(themes, error)
    decreases |page|
  {
    if |page| > 0 && |themes| > 0 {
      var p1, t1 := page[1..], themes[1..];
      assert decode(page[0]) == Ok(themes[0]);
      DecodePageCharacterised(decode, p1, t1, error);
      assert themes == [themes[0]] + t1;
    }
  }

  /** The inner `for` loop of `_fetch` over one non-empty page: decode and
      emit the records one at a time; an undecodable swatch aborts right there,
      after the records before it have been emitted. */
  method EmitPage(decode: RawTheme -> Result<Theme, HexError>, page: Page) returns (themes: seq<Theme>, failed: Option<HexError>)
    ensures PageDecode(themes, failed) == DecodePage(decode, page)
  {
    themes := [];
    failed := None;
    var i := 0;
    while i < |page| && failed.None?
      invariant 0 <= i <= |page| && |themes| == i
      invariant forall j :: 0 <= j < i ==> decode(page[j]) == Ok(themes[j])
      invariant failed.Some? ==> i < |page| && decode(page[i]) == Err(failed.value)
      decreases |page| - i, if failed.None? then 1 else 0
    {
      match decode(page[i])
      case Err(e) =>
        failed := Some(e);
      case Ok(t) =>
        themes := themes + [t];
        i := i + 1;
    }
    DecodePageCharacterised(decode, page, themes, failed);
  }

  // ---------------------------------------------------------------------
  // The loop as the source writes it, and what pins its run down

  /** What the requests of a run from `cursor`, with `count` items already
      emitted and at most `fuel` fetches, show: the k-th asked for cursor
      `cursor + k`, each passed the limit test on the items emitted before it,
      every page but the last was full, and the themes are those pages'. */
  ghost predicate RequestFacts(feed: Feed, cursor: int, count: int, fuel: nat, themes: seq<Theme>, urls: seq<string>) {
    && |urls| <= fuel
    && (forall k :: 0 <= k < |urls| ==> urls[k] == feed.request(cursor + k))
    && themes == ThemesUpTo(feed, cursor, |urls|)
    && (forall k :: 0 <= k < |urls| ==> MayFetch(feed.maxItems, count + |ThemesUpTo(feed, cursor, k)|))
    && (forall k :: 0 <= k < |urls| - 1 ==> FullPage(feed, urls[k]))
  }

  /** Why a run ended, as its last page and its item count show it. */
  ghost predicate StopFacts(feed: Feed, count: int, fuel: nat, r: Run) {
    && (r.stop == MaxReached ==> !MayFetch(feed.maxItems, count + |r.themes|))
    && (r.stop == OutOfFuel ==> MayFetch(feed.maxItems, count + |r.themes|) && |r.urls| == fuel)
    && ((r.stop == MaxReached || r.stop == OutOfFuel) && |r.urls| > 0 ==> FullPage(feed, r.urls[|r.urls| - 1]))
    && (r.stop == EmptyPage <==> |r.urls| > 0 && feed.fetch(r.urls[|r.urls| - 1]) == Some([]))
    && (r.stop == Failed(Transport) <==> |r.urls| > 0 && feed.fetch(r.urls[|r.urls| - 1]).None?)
    && (r.stop.Failed? && r.stop.failure.BadSwatch? ==>
         |r.urls| > 0 && feed.fetch(r.urls[|r.urls| - 1]).Some?
         && DecodePage(feed.decode, feed.fetch(r.urls[|r.urls| - 1]).value).error == Some(r.stop.failure.error))
  }

  /** Everything a finished run shows about its requests and its end. */
  ghost predicate RunFacts(feed: Feed, cursor: int, count: int, fuel: nat, r: Run) {
    RequestFacts(feed, cursor, count, fuel, r.themes, r.urls) && StopFacts(feed, count, fuel, r)
  }

  /** Those facts pin the run down: the only run that shows them is the one
      `Loop` describes. */
  lemma {:induction false} LoopCharacterised(feed: Feed, cursor: int, count: int, fuel: nat, r: Run)
    requires RunFacts(feed, cursor, count, fuel, r)
    ensures r == Loop(feed, cursor, count, fuel)
    decreases fuel
  {
    if !MayFetch(feed.maxItems, count) || fuel == 0 {
      NoFetchFacts(feed, cursor, count, fuel, r);
    } else if StepAt(feed, cursor).Halt? {
      HaltFacts(feed, cursor, count, fuel, r);
    } else {
      var c1 := count + |StepAt(feed, cursor).themes|;
      var tail := TailFacts(feed, cursor, count, fuel, r);
      LoopCharacterised(feed, cursor + 1, c1, fuel - 1, tail);
    }
  }

  /** A run that may not fetch at all ends on the limit, or failing that on
      the fuel, having requested nothing. */
  lemma NoFetchFacts(feed: Feed, cursor: int, count: int, fuel: nat, r: Run)
    requires RunFacts(feed, cursor, count, fuel, r)
    requires !MayFetch(feed.maxItems, count) || fuel == 0
    ensures r == Run([], [], if MayFetch(feed.maxItems, count) then OutOfFuel else MaxReached)
  {
    assert ThemesUpTo(feed, cursor, 0) == [];
  }

  /** A run whose first page ends it is that one request. */
  lemma HaltFacts(feed: Feed, cursor: int, count: int, fuel: nat, r: Run)
    requires RunFacts(feed, cursor, count, fuel, r)
    requires MayFetch(feed.maxItems, count) && fuel > 0 && StepAt(feed, cursor).Halt?
    ensures r == Run(StepAt(feed, cursor).themes, [feed.request(cursor)], StepAt(feed, cursor).stop)
  {
    assert |r.urls| > 0;
    assert r.urls[0] == feed.request(cursor);
    FullPageIsNext(feed, cursor);
    assert |r.urls| == 1;
    assert r.urls == [feed.request(cursor)];
    assert ThemesUpTo(feed, cursor + 1, 0) == [];
    var data := feed.fetch(feed.request(cursor));
    if data.None? {
      assert r.stop == Failed(Transport);
    } else if |data.value| == 0 {
      assert data.value == [];
      assert r.stop == EmptyPage;
    } else {
      assert r.stop != MaxReached && r.stop != OutOfFuel && r.stop != EmptyPage;
      assert r.stop.Failed? && r.stop.failure.BadSwatch?;
    }
  }

  /** After a full first page, the rest of the run shows the same facts from
      the next cursor. */
  lemma TailFacts(feed: Feed, cursor: int, count: int, fuel: nat, r: Run) returns (tail: Run)
    requires RunFacts(feed, cursor, count, fuel, r)
    requires MayFetch(feed.maxItems, count) && fuel > 0 && StepAt(feed, cursor).Next?
    ensures r == Run(StepAt(feed, cursor).themes + tail.themes, [feed.request(cursor)] + tail.urls, tail.stop)
    ensures RunFacts(feed, cursor + 1, count + |StepAt(feed, cursor).themes|, fuel - 1, tail)
  {
    var ts := StepAt(feed, cursor).themes;
    RunStarts(feed, cursor, count, fuel, r);
    TailShape(feed, cursor, r);
    tail := Run(r.themes[|ts|..], r.urls[1..], r.stop);
    TailRequests(feed, cursor, count, fuel, r);
    TailStop(feed, cursor, count, fuel, r);
  }

  /** A run that may fetch has fetched, and first at `cursor`. */
  lemma RunStarts(feed: Feed, cursor: int, count: int, fuel: nat, r: Run)
    requires RunFacts(feed, cursor, count, fuel, r)
    requires MayFetch(feed.maxItems, count) && fuel > 0
    ensures |r.urls| > 0 && r.urls[0] == feed.request(cursor)
  {
    assert ThemesUpTo(feed, cursor, 0) == [];
  }

  /** A run whose first page was full starts with that page's request and themes. */
  lemma TailShape(feed: Feed, cursor: int, r: Run)
    requires |r.urls| > 0 && r.urls[0] == feed.request(cursor)
    requires r.themes == ThemesUpTo(feed, cursor, |r.urls|)
    ensures var ts := StepAt(feed, cursor).themes;
      && |ts| <= |r.themes|
      && r.themes[|ts|..] == ThemesUpTo(feed, cursor + 1, |r.urls| - 1)
      && r == Run(ts + r.themes[|ts|..], [feed.request(cursor)] + r.urls[1..], r.stop)
  {
    var ts := StepAt(feed, cursor).themes;
    var rest := ThemesUpTo(feed, cursor + 1, |r.urls| - 1);
    assert r.themes == ts + rest;
    assert r.themes[|ts|..] == rest;
    assert r.urls == [r.urls[0]] + r.urls[1..];
  }

  lemma TailRequests(feed: Feed, cursor: int, count: int, fuel: nat, r: Run)
    requires RunFacts(feed, cursor, count, fuel, r)
    requires MayFetch(feed.maxItems, count) && fuel > 0 && StepAt(feed, cursor).Next?
    ensures var ts := StepAt(feed, cursor).themes;
      |ts| <= |r.themes| && |r.urls| > 0
      && RequestFacts(feed, cursor + 1, count + |ts|, fuel - 1, r.themes[|ts|..], r.urls[1..])
  {
    RunStarts(feed, cursor, count, fuel, r);
    TailShape(feed, cursor, r);
    var ts := StepAt(feed, cursor).themes;
    var k1, c1, u := cursor + 1, count + |ts|, r.urls[1..];
    forall k | 0 <= k < |u| ensures u[k] == feed.request(k1 + k) {
      assert u[k] == r.urls[k + 1];
    }
    forall k | 0 <= k < |u| ensures MayFetch(feed.maxItems, c1 + |ThemesUpTo(feed, k1, k)|) {
      assert MayFetch(feed.maxItems, count + |ThemesUpTo(feed, cursor, k + 1)|);
    }
    forall k | 0 <= k < |u| - 1 ensures FullPage(feed, u[k]) {
      assert u[k] == r.urls[k + 1];
    }
  }

  lemma TailStop(feed: Feed, cursor: int, count: int, fuel: nat, r: Run)
    requires RunFacts(feed, cursor, count, fuel, r)
    requires MayFetch(feed.maxItems, count) && fuel > 0 && StepAt(feed, cursor).Next?
    ensures var ts := StepAt(feed, cursor).themes;
      |ts| <= |r.themes| && |r.urls| > 0
      && StopFacts(feed, count + |ts|, fuel - 1, Run(r.themes[|ts|..], r.urls[1..], r.stop))
  {
    RunStarts(feed, cursor, count, fuel, r);
    TailShape(feed, cursor, r);
    FullPageIsNext(feed, cursor);
    var u := r.urls[1..];
    if |u| > 0 {
      assert u[|u| - 1] == r.urls[|r.urls| - 1];
    }
  }

  /** The facts of a run still going: its requests show `RequestFacts`, and
      its last page, if any, was full. */
  ghost predicate PrefixFacts(feed: Feed, startIndex: int, fuel: nat, themes: seq<Theme>, urls: seq<string>) {
    && RequestFacts(feed, startIndex, 0, fuel, themes, urls)
    && (|urls| > 0 ==> FullPage(feed, urls[|urls| - 1]))
  }

  /** Leaving the loop on the limit test or on the model's fuel ends a run
      with the facts of `RunFacts`. */
  lemma StopBeforeFetch(feed: Feed, startIndex: int, fuel: nat, themes: seq<Theme>, urls: seq<string>)
    requires PrefixFacts(feed, startIndex, fuel, themes, urls)
    ensures !MayFetch(feed.maxItems, |themes|) ==> RunFacts(feed, startIndex, 0, fuel, Run(themes, urls, MaxReached))
    ensures MayFetch(feed.maxItems, |themes|) && |urls| == fuel ==>
      RunFacts(feed, startIndex, 0, fuel, Run(themes, urls, OutOfFuel))
  {
  }

  /** One more request at the next cursor, once the limit test has passed,
      keeps `RequestFacts`. */
  lemma SnocRequest(feed: Feed, startIndex: int, fuel: nat, themes: seq<Theme>, urls: seq<string>)
    requires PrefixFacts(feed, startIndex, fuel, themes, urls)
    requires MayFetch(feed.maxItems, |themes|) && |urls| < fuel
    ensures RequestFacts(feed, startIndex, 0, fuel, themes + StepAt(feed, startIndex + |urls|).themes,
                         urls + [feed.request(startIndex + |urls|)])
  {
    var n := |urls|;
    var u := urls + [feed.request(startIndex + n)];
    ThemesUpToSnoc(feed, startIndex, n);
    assert forall k :: 0 <= k < n ==> u[k] == urls[k];
    assert u[n] == feed.request(startIndex + n);
  }

  /** One pass of the loop body at the next cursor that ends the run leaves
      it with the facts of `RunFacts`. */
  lemma HaltStepFacts(feed: Feed, startIndex: int, fuel: nat, themes: seq<Theme>, urls: seq<string>)
    requires PrefixFacts(feed, startIndex, fuel, themes, urls)
    requires MayFetch(feed.maxItems, |themes|) && |urls| < fuel
    requires StepAt(feed, startIndex + |urls|).Halt?
    ensures var st := StepAt(feed, startIndex + |urls|);
      RunFacts(feed, startIndex, 0, fuel, Run(themes + st.themes, urls + [feed.request(startIndex + |urls|)], st.stop))
  {
    var n := |urls|;
    var st := StepAt(feed, startIndex + n);
    var u := urls + [feed.request(startIndex + n)];
    SnocRequest(feed, startIndex, fuel, themes, urls);
    FullPageIsNext(feed, startIndex + n);
    assert u[n] == feed.request(startIndex + n);
    var data := feed.fetch(feed.request(startIndex + n));
    if data.Some? && |data.value| > 0 {
      assert st.stop.Failed? && st.stop.failure.BadSwatch?;
    }
  }

  /** One pass of the loop body at the next cursor that goes on keeps the
      loop's facts for one more page. */
  lemma NextStepFacts(feed: Feed, startIndex: int, fuel: nat, themes: seq<Theme>, urls: seq<string>)
    requires PrefixFacts(feed, startIndex, fuel, themes, urls)
    requires MayFetch(feed.maxItems, |themes|) && |urls| < fuel
    requires StepAt(feed, startIndex + |urls|).Next?
    ensures PrefixFacts(feed, startIndex, fuel, themes + StepAt(feed, startIndex + |urls|).themes,
                        urls + [feed.request(startIndex + |urls|)])
  {
    var n := |urls|;
    var u := urls + [feed.request(startIndex + n)];
    SnocRequest(feed, startIndex, fuel, themes, urls);
    FullPageIsNext(feed, startIndex + n);
    assert u[n] == feed.request(startIndex + n);
  }

  /** The `while` loop of `_fetch(service, startIndex, maxItems, **options)`
      as the source writes it: test the limit, request the page at the
      cursor, leave on a transport error or an empty page, else emit its
      records and move the cursor by one. The run it produces shows the
      facts of `RunFacts` from `startIndex` with nothing emitted, and so is
      the one `FetchAll` describes. */
  method Fetch(feed: Feed, startIndex: int, fuel: nat) returns (r: Run)
    ensures RunFacts(feed, startIndex, 0, fuel, r)
    ensures r == FetchAll(feed, startIndex, fuel)
  {
    var themes: seq<Theme> := [];
    var urls: seq<string> := [];
    var cursor := startIndex;
    var stop: Option<Stop> := None;
    while stop.None?
      invariant stop.None? ==> cursor == startIndex + |urls| && PrefixFacts(feed, startIndex, fuel, themes, urls)
      invariant stop.Some? ==> RunFacts(feed, startIndex, 0, fuel, Run(themes, urls, stop.value))
      decreases fuel - |urls|, if stop.None? then 1 else 0
    {
      StopBeforeFetch(feed, startIndex, fuel, themes, urls);
      if !MayFetch(feed.maxItems, |themes|) {
        stop := Some(MaxReached);
      } else if |urls| == fuel {
        stop := Some(OutOfFuel);
      } else {
        var url := feed.request(cursor);
        var data := feed.fetch(url);
        if data.None? {
          HaltStepFacts(feed, startIndex, fuel, themes, urls);
          stop := Some(Failed(Transport));
        } else if |data.value| == 0 {
          HaltStepFacts(feed, startIndex, fuel, themes, urls);
          stop := Some(EmptyPage);
        } else {
          var emitted, failed := EmitPage(feed.decode, data.value);
          if failed.Some? {
            HaltStepFacts(feed, startIndex, fuel, themes, urls);
            stop := Some(Failed(BadSwatch(failed.value)));
          } else {
            NextStepFacts(feed, startIndex, fuel, themes, urls);
          }
          themes := themes + emitted;
          cursor := cursor + 1;
        }
        urls := urls + [url];
      }
    }
    r := Run(themes, urls, stop.value);
    LoopCharacterised(feed, startIndex, 0, fuel, r);
  }
}

=== FILE: requests.dfy ===
/** What `Kuler.search` and `Kuler.list` put on the wire: the search
    criterion that wins, the option lists, and the paged request URL. */
module Requests {
  import opened Wrappers
  import opened Decimal

  /** The keyword criteria of `search`; `None` is an omitted argument. */
  datatype Criteria = Criteria(
    themeID: Option<string>,
    userID: Option<string>,
    email: Option<string>,
    tag: Option<string>,
    hex: Option<string>,
    title: Option<string>)

  /** Python truthiness of a string argument: given and non-empty. */
  predicate Truthy(v: Option<string>) {
    v.Some? && |v.value| > 0
  }

  /** Raised by `search` when no criterion is set. */
  datatype ArgumentError = NoCriterion

  /** The `if`/`elif` chain of `search`: the first truthy criterion becomes
      `"<field>:<value>"`, which is what scanning the fields in precedence
      order finds. */
  function SearchQuery(c: Criteria): (r: Result<string, ArgumentError>)
    ensures r == FirstCriterion(Fields(c))
  {
    var f := Fields(c);
    assert f[0] == ("themeID", c.themeID) && f[1] == ("userID", c.userID);
    assert f[2] == ("email", c.email) && f[3] == ("tag", c.tag);
    assert f[4] == ("hex", c.hex) && f[5] == ("title", c.title);
    FirstCriterionStep(f, 0);
    FirstCriterionStep(f, 1);
    FirstCriterionStep(f, 2);
    FirstCriterionStep(f, 3);
    FirstCriterionStep(f, 4);
    FirstCriterionStep(f, 5);
    assert FirstCriterion(f[6..]) == Err(NoCriterion);
    assert "themeID" + ":" == "themeID:" && "userID" + ":" == "userID:" && "email" + ":" == "email:";
    assert "tag" + ":" == "tag:" && "hex" + ":" == "hex:" && "title" + ":" == "title:";
    if Truthy(c.themeID) then Ok("themeID:" + c.themeID.value)
    else if Truthy(c.userID) then Ok("userID:" + c.userID.value)
    else if Truthy(c.email) then Ok("email:" + c.email.value)
    else if Truthy(c.tag) then Ok("tag:" + c.tag.value)
    else if Truthy(c.hex) then Ok("hex:" + c.hex.value)
    else if Truthy(c.title) then Ok("title:" + c.title.value)
    else Err(NoCriterion)
  }

  /** The criteria as (field name, argument) pairs in precedence order. */
  function Fields(c: Criteria): seq<(string, Option<string>)> {
    [("themeID", c.themeID), ("userID", c.userID), ("email", c.email),
     ("tag", c.tag), ("hex", c.hex), ("title", c.title)]
  }

  /** Scan (field name, argument) pairs for the first truthy argument. */
  function FirstCriterion(fs: seq<(string, Option<string>)>): Result<string, ArgumentError> {
    if |fs| == 0 then Err(NoCriterion)
    else if Truthy(fs[0].1) then Ok(fs[0].0 + ":" + fs[0].1.value)
    else FirstCriterion(fs[1..])
  }

  /** One step of the scan, from position `k` on. */
  lemma FirstCriterionStep(fs: seq<(string, Option<string>)>, k: nat)
    requires k < |fs|
    ensures FirstCriterion(fs[k..]) ==
      if Truthy(fs[k].1) then Ok(fs[k].0 + ":" + fs[k].1.value) else FirstCriterion(fs[k + 1..])
  {
    assert fs[k..][1..] == fs[k + 1..];
  }

  /** Field `k` is truthy and no field before it is. */
  predicate FirstTruthy(c: Criteria, k: int) {
    && 0 <= k < |Fields(c)|
    && Truthy(Fields(c)[k].1)
    && forall j :: 0 <= j < k ==> !Truthy(Fields(c)[j].1)
  }

  /** `search` fails exactly when no criterion is truthy; otherwise it uses the
      first truthy one in the order themeID, userID, email, tag, hex, title. */
  lemma SearchQueryPrecedence(c: Criteria)
    ensures SearchQuery(c).Err? <==> forall k :: 0 <= k < |Fields(c)| ==> !Truthy(Fields(c)[k].1)
    ensures forall k :: FirstTruthy(c, k) ==>
      SearchQuery(c) == Ok(Fields(c)[k].0 + ":" + Fields(c)[k].1.value)
  {
    var f := Fields(c);
    assert f[0] == ("themeID", c.themeID) && f[1] == ("userID", c.userID);
    assert f[2] == ("email", c.email) && f[3] == ("tag", c.tag);
    assert f[4] == ("hex", c.hex) && f[5] == ("title", c.title);
    assert "themeID" + ":" == "themeID:" && "userID" + ":" == "userID:" && "email" + ":" == "email:";
    assert "tag" + ":" == "tag:" && "hex" + ":" == "hex:" && "title" + ":" == "title:";
    forall k | FirstTruthy(c, k)
      ensures SearchQuery(c) == Ok(f[k].0 + ":" + f[k].1.value)
    {
      if k == 0 {
      } else if k == 1 {
        assert !Truthy(f[0].1);
      } else if k == 2 {
        assert !Truthy(f[0].1) && !Truthy(f[1].1);
      } else if k == 3 {
        assert !Truthy(f[0].1) && !Truthy(f[1].1) && !Truthy(f[2].1);
      } else if k == 4 {
        assert !Truthy(f[0].1) && !Truthy(f[1].1) && !Truthy(f[2].1) && !Truthy(f[3].1);
      } else {
        assert !Truthy(f[0].1) && !Truthy(f[1].1) && !Truthy(f[2].1) && !Truthy(f[3].1);
        assert !Truthy(f[4].1);
      }
    }
  }

  const Host := "http://kuler-api.adobe.com/"
  const SearchService := "rss/search.cfm"
  const ListService := "rss/get.cfm"

  /** Request options in the order they are serialised, values already
      passed through `str`. */
  type Options = seq<(string, string)>

  /** The options joined as `k=v` pairs separated by `&`. */
  function JoinOptions(opts: Options): string {
    if |opts| == 0 then ""
    else if |opts| == 1 then opts[0].0 + "=" + opts[0].1
    else opts[0].0 + "=" + opts[0].1 + "&" + JoinOptions(opts[1..])
  }

  /** The URL of one page request: everything before the cursor value. */
  function UrlHead(service: string, opts: Options): string {
    Host + service + "?" + JoinOptions(opts) + "&startIndex="
  }

  /** The URL `_fetch` requests for page cursor `cursor`: the request head,
      then a numeral that reads back as the cursor, then the key. */
  function PageUrl(service: string, opts: Options, cursor: int, key: string): (u: string)
    ensures |UrlHead(service, opts)| + |key| + 5 < |u|
    ensures u[..|UrlHead(service, opts)|] == UrlHead(service, opts)
    ensures ParseInt(u[|UrlHead(service, opts)|..|u| - |key| - 5]) == Some(cursor)
    ensures u[|u| - |key| - 5..] == "&key=" + key
  {
    var h, n, t := UrlHead(service, opts), IntString(cursor), "&key=" + key;
    assert (h + n + t)[..|h|] == h;
    assert (h + n + t)[|h|..|h| + |n|] == n;
    assert (h + n + t)[|h| + |n|..] == t;
    h + n + t
  }

  /** `startIndex` and `maxItems` are consumed by `_fetch` itself and never
      travel among the options. */
  predicate NoPagingKeys(opts: Options) {
    forall i :: 0 <= i < |opts| ==> opts[i].0 != "startIndex" && opts[i].0 != "maxItems"
  }

  /** The options `search` hands to `_fetch`. */
  function SearchOptions(query: string, itemsPerPage: int): (opts: Options)
    ensures NoPagingKeys(opts)
  {
    [("searchQuery", query), ("itemsPerPage", IntString(itemsPerPage))]
  }

  /** The options `list` hands to `_fetch`. */
  function ListOptions(listType: string, itemsPerPage: int, timeSpan: int): (opts: Options)
    ensures NoPagingKeys(opts)
  {
    [("listType", listType), ("itemsPerPage", IntString(itemsPerPage)), ("timeSpan", IntString(timeSpan))]
  }

  /** The page URLs of one service, option list and key differ for
      different cursors. */
  lemma PageUrlInjective(service: string, opts: Options, key: string)
    ensures forall a, b :: PageUrl(service, opts, a, key) == PageUrl(service, opts, b, key) ==> a == b
  {
  }

  /** The request `list` makes for cursor `n`. */
  lemma ListUrlShape(listType: string, itemsPerPage: int, timeSpan: int, n: int, key: string)
    ensures PageUrl(ListService, ListOptions(listType, itemsPerPage, timeSpan), n, key)
      == "http://kuler-api.adobe.com/rss/get.cfm?listType=" + listType
         + "&itemsPerPage=" + IntString(itemsPerPage) + "&timeSpan=" + IntString(timeSpan)
         + "&startIndex=" + IntString(n) + "&key=" + key
  {
    var opts := ListOptions(listType, itemsPerPage, timeSpan);
    var a, b, c := IntString(itemsPerPage), IntString(timeSpan), IntString(n);
    assert opts == [("listType", listType), ("itemsPerPage", a), ("timeSpan", b)];
    assert opts[1..][1..] == [("timeSpan", b)];
    var j := JoinOptions(opts);
    assert "listType" + "=" == "listType=" && "itemsPerPage" + "=" == "itemsPerPage=";
    assert "timeSpan" + "=" == "timeSpan=";
    assert JoinOptions(opts[1..][1..]) == "timeSpan=" + b;
    assert JoinOptions(opts[1..]) == "itemsPerPage=" + a + "&" + "timeSpan=" + b;
    assert j == "listType=" + listType + "&" + ("itemsPerPage=" + a + "&" + "timeSpan=" + b);
    assert PageUrl(ListService, opts, n, key) == Host + ListService + "?" + j + "&startIndex=" + c + "&key=" + key;
    UrlPieces(listType, a, b, c, key);
  }

  /** Regrouping a concatenation of three strings. */
  lemma Assoc(x: string, y: string, z: string)
    ensures x + (y + z) == x + y + z
  {
  }

  lemma ListPrefix()
    ensures Host + ListService + "?" + "listType=" == "http://kuler-api.adobe.com/rss/get.cfm?listType="
  {
    assert Host + ListService == "http://kuler-api.adobe.com/rss/get.cfm";
  }

  lemma SearchPrefix()
    ensures Host + SearchService + "?" + "searchQuery=" == "http://kuler-api.adobe.com/rss/search.cfm?searchQuery="
  {
    assert Host + SearchService == "http://kuler-api.adobe.com/rss/search.cfm";
  }

  lemma UrlPieces(lt: string, a: string, b: string, c: string, key: string)
    ensures Host + ListService + "?" + ("listType=" + lt + "&" + ("itemsPerPage=" + a + "&" + "timeSpan=" + b))
        + "&startIndex=" + c + "&key=" + key
      == "http://kuler-api.adobe.com/rss/get.cfm?listType=" + lt + "&itemsPerPage=" + a
        + "&timeSpan=" + b + "&startIndex=" + c + "&key=" + key
  {
    var p := Host + ListService + "?";
    var l := "http://kuler-api.adobe.com/rss/get.cfm?listType=";
    ListPrefix();
    var y := "itemsPerPage=" + a + "&" + "timeSpan=" + b;
    Assoc(p, "listType=" + lt + "&", y);
    Assoc(p, "listType=" + lt, "&");
    Assoc(p, "listType=", lt);
    var m := l + lt + "&";
    Assoc(m, "itemsPerPage=" + a + "&" + "timeSpan=", b);
    Assoc(m, "itemsPerPage=" + a + "&", "timeSpan=");
    Assoc(m, "itemsPerPage=" + a, "&");
    Assoc(m, "itemsPerPage=", a);
    Assoc(l + lt, "&", "itemsPerPage=");
    assert "&" + "itemsPerPage=" == "&itemsPerPage=";
    var q := l + lt + "&itemsPerPage=";
    Assoc(q + a, "&", "timeSpan=");
    assert "&" + "timeSpan=" == "&timeSpan=";
  }

  /** The request `search` makes for cursor `n`. */
  lemma SearchUrlShape(query: string, itemsPerPage: int, n: int, key: string)
    ensures PageUrl(SearchService, SearchOptions(query, itemsPerPage), n, key)
      == "http://kuler-api.adobe.com/rss/search.cfm?searchQuery=" + query
         + "&itemsPerPage=" + IntString(itemsPerPage)
         + "&startIndex=" + IntString(n) + "&key=" + key
  {
    var opts := SearchOptions(query, itemsPerPage);
    var a, c := IntString(itemsPerPage), IntString(n);
    assert opts == [("searchQuery", query), ("itemsPerPage", a)];
    assert opts[1..] == [("itemsPerPage", a)];
    var j := JoinOptions(opts);
    assert "searchQuery" + "=" == "searchQuery=" && "itemsPerPage" + "=" == "itemsPerPage=";
    assert JoinOptions(opts[1..]) == "itemsPerPage=" + a;
    assert j == "searchQuery=" + query + "&" + ("itemsPerPage=" + a);
    assert PageUrl(SearchService, opts, n, key) == Host + SearchService + "?" + j + "&startIndex=" + c + "&key=" + key;
    SearchUrlPieces(query, a, c, key);
  }

  lemma SearchUrlPieces(q: string, a: string, c: string, key: string)
    ensures Host + SearchService + "?" + ("searchQuery=" + q + "&" + ("itemsPerPage=" + a))
        + "&startIndex=" + c + "&key=" + key
      == "http://kuler-api.adobe.com/rss/search.cfm?searchQuery=" + q + "&itemsPerPage=" + a
        + "&startIndex=" + c + "&key=" + key
  {
    var p := Host + SearchService + "?";
    var l := "http://kuler-api.adobe.com/rss/search.cfm?searchQuery=";
    SearchPrefix();
    Assoc(p, "searchQuery=" + q + "&", "itemsPerPage=" + a);
    Assoc(p, "searchQuery=" + q, "&");
    Assoc(p, "searchQuery=", q);
    var m := l + q + "&";
    Assoc(m, "itemsPerPage=", a);
    Assoc(l + q, "&", "itemsPerPage=");
    assert "&" + "itemsPerPage=" == "&itemsPerPage=";
  }
}

=== FILE: theme.dfy ===
/** `Theme` of src/kuler.py: an id, a title and a list of colours, read
    through Python's sequence protocol. The list is a value here; the
    source's theme shares the caller's list. */
module Themes {
  import opened Wrappers
  import opened Colors

  datatype Theme = Theme(themeId: string, title: string, colors: seq<Color>)

  /** Python's `IndexError` from `self.colors[index]`. */
  datatype IndexError = IndexOutOfRange(index: int)

  /** `len(theme)`: every position below it can be indexed, and it is the
      first one that cannot. */
  function Len(t: Theme): (n: nat)
    ensures forall i :: 0 <= i < n ==> GetItem(t, i).Ok?
    ensures GetItem(t, n).Err?
  {
    |t.colors|
  }

  /** `theme[index]`, with Python list indexing: negative positions count
      from the end, anything else outside the list fails. */
  function GetItem(t: Theme, index: int): (r: Result<Color, IndexError>)
    ensures r.Ok? <==> -|t.colors| <= index < |t.colors|
  {
    if 0 <= index < |t.colors| then Ok(t.colors[index])
    else if -|t.colors| <= index < 0 then Ok(t.colors[|t.colors| + index])
    else Err(IndexOutOfRange(index))
  }

  /** `iter(theme)`: the colours in stored order, position `i` being `theme[i]`. */
  function Iter(t: Theme): (s: seq<Color>)
    ensures |s| == Len(t)
    ensures forall i :: 0 <= i < |s| ==> GetItem(t, i) == Ok(s[i])
  {
    t.colors
  }

  /** `theme.items()`: the same colours as iterating the theme. */
  function Items(t: Theme): (s: seq<Color>)
    ensures s == Iter(t)
  {
    t.colors
  }

  /** Indexing, length, iteration and `items()` all describe the one colour
      list: position `i` of the iteration is `theme[i]`, `theme[-k]` is
      position `len - k`, and the first position past the end fails. */
  lemma ThemeViewsAgree(t: Theme)
    ensures |Iter(t)| == Len(t) && Items(t) == Iter(t)
    ensures forall i :: 0 <= i < Len(t) ==> GetItem(t, i) == Ok(Iter(t)[i])
    ensures forall i :: -(Len(t) as int) <= i < 0 ==> GetItem(t, i) == Ok(Iter(t)[Len(t) + i])
    ensures GetItem(t, Len(t)) == Err(IndexOutOfRange(Len(t)))
    ensures GetItem(t, -(Len(t) as int) - 1).Err?
  {
  }

  /** A theme built over a colour list gives that list back, whole and in order. */
  lemma ThemeRoundTrip(themeId: string, title: string, colors: seq<Color>)
    ensures Len(Theme(themeId, title, colors)) == |colors|
    ensures Iter(Theme(themeId, title, colors)) == colors
  {
  }

  /** Indexing and iteration agree: asking for `theme[0]`, `theme[1]`, ...
      until the first `IndexError` collects exactly what `iter(theme)`
      yields. */
  method IterateByIndex(t: Theme) returns (out: seq<Color>)
    ensures out == Iter(t)
  {
    out := [];
    var i := 0;
    var done := false;
    while !done
      invariant 0 <= i <= Len(t)
      invariant out == Iter(t)[..i]
      invariant done ==> i == Len(t)
      decreases Len(t) - i, !done
    {
      match GetItem(t, i)
      case Ok(c) =>
        out := out + [c];
        i := i + 1;
      case Err(_) =>
        done := true;
    }
  }
}

=== FILE: wrappers.dfy ===
/** Failure-carrying datatypes used throughout the model: Python's `None`
    and raised exceptions become explicit values here. */
module Wrappers {

  /** A value that may be absent, as Python's `None`. */
  datatype Option<+T> = None | Some(value: T)

  /** Either a computed value or the error the source would raise. */
  datatype Result<+T, +E> = Ok(value: T) | Err(error: E)
}
